=== FILE: README.md ===
# Google-Docs script import, modelled in Dafny

This project models `import_file`, the importer that loads one conversation
script into the graph store. A script is a JSON file at
`<Program>/Module<NN>/Day<NN>/<persona>.json`. The importer does three things:

- it reads the catalog coordinates from the last four segments of the path;
- it validates every turn record against the `validJSON` schema (string `role`
  and `text`, an optional integer `seq`, other keys ignored);
- it upserts Program, Module, Day and Persona nodes and their HAS_MODULE,
  HAS_DAY and HAS_PERSONA edges, merges one root Turn with a ROOTS edge from
  the persona, and writes one Turn per record, each linked by CHILD_OF to the
  turn before it (the root for the first).

It returns the job id.

The model has one module per concern:

- `Digits`: the digit filter and the ordering key, i.e. the digits of a name
  read as one decimal number, or 0 when there are none.
- `CatalogPath`: the path parser and its inverse, the canonical path of some
  coordinates.
- `Script`: JSON values, records and the validator.
- `Store`: the graph store, abstracted. Every Cypher statement the importer
  issues becomes one `Stmt`. A node MERGE inserts the node's property tuple
  into a set. An edge MERGE adds an edge for every pair of nodes its MATCH
  finds. The Program node is merged by name and then has its key SET, so
  programs form a map.
- `ImportPlan`: the statement sequence of one import, a reference definition
  of the state after each phase, and `WriteChain`, the turn loop with its
  parent cursor.
- `Importer`: `ImportFile` itself, with the properties of whole imports.

Some parts of the import are parameters of the model:

- Ids come from a counter that stands for the uuid supply. The job takes the
  next id, the root the one after, and the turns the ids after that.
- The store clock `timestamp()` is one value `now` per import.
- A store failure is the index of the statement the store refuses. The
  statements before it stay written, because each `session.run` is its own
  transaction.

## Model

| member | source | states |
|---|---|---|
| Digits.KeepDigits | docs/scripts/import_google_docs.py:152 | The filter keeps exactly the digit characters of the name: only digits, never more than the name has, and every digit character of the name appears. |
| Digits.KeepDigitsAppend | docs/scripts/import_google_docs.py:152 | The filter reads the name left to right: the digits of a concatenation are the digits of each part, in order. |
| Digits.NatToDecimal | docs/scripts/import_google_docs.py:166-167 | Every number has a digit spelling with no leading zero whose decimal value is that number, so `int()` of a digit string inverts it. |
| Digits.DecimalLength | docs/scripts/import_google_docs.py:166-167 | The shortest spelling of a number fits in k digits exactly when the number is below 10 to the power k. |
| Digits.DecimalValue | docs/scripts/import_google_docs.py:166-167 | The value `int()` gives a digit string is below 10 to the power of its length; NatToDecimal and DecimalValueAppend pin it down as positional decimal. |
| Digits.OrderingKey | docs/scripts/import_google_docs.py:152 | The `or 0` fallback agrees with the value of the empty digit string, so the key is always the decimal value of the name's digits, and it has no more decimal places than the name has digits. |
| Digits.DecimalValueAppend | docs/scripts/import_google_docs.py:166-167 | Appending digits shifts the value: the appended digits become the low-order part of the number. |
| Digits.LeadingZero | docs/scripts/import_google_docs.py:166-167 | A leading zero does not change the value of a digit string, so `01` and `1` denote the same number. |
| Digits.OrderingKeyAppend | docs/scripts/import_google_docs.py:150-152 | The ordering key of a concatenation is the head's key shifted past the tail's digits, plus the tail's key. |
| Digits.OrderingKeyOfDecimal | docs/scripts/import_google_docs.py:150-152 | The ordering key of a number's decimal spelling is that number. |
| Digits.NoDigitsKeyZero | docs/scripts/import_google_docs.py:151-152 | A name with no digit character has ordering key 0, the `or 0` fallback. |
| Digits.StemThenNumberKey | docs/scripts/import_google_docs.py:150-152 | A digit-free stem followed by a number has that number as its key. |
| Digits.OrderingKeyExamples | docs/scripts/import_google_docs.py:151 | `Mindfulness101` has key 101 and `test_program` has key 0. |
| CatalogPath.ParseNumbered | docs/scripts/import_google_docs.py:155-167 | An accepted folder is the prefix followed by a non-empty run of digits, and the number read is the decimal value of those digits, below 10 to the power of their count. A refused folder lacks the prefix, has nothing after it, or has a non-digit character after the prefix at some position. Whether `int()` reads that many digits is left to ParseSegments, which checks it after both folder guards, as lines 166-167 come after lines 155-162. |
| CatalogPath.ParseNumberedGrammar | docs/scripts/import_google_docs.py:155-167 | Stated without slicing, `prefix + digits` is accepted exactly when `digits` is a non-empty digit string, and the number read is the value of those digits. |
| CatalogPath.ParseNumberedNeedsPrefix | docs/scripts/import_google_docs.py:155-162 | A folder that does not start with the prefix is refused. |
| CatalogPath.ParseNumberedZeroPadded | docs/scripts/import_google_docs.py:166-167 | A zero-padded number is accepted and read as its value. |
| CatalogPath.ModuleFolderExamples | docs/scripts/import_google_docs.py:155-167 | `ModuleA1` and a bare `Module` are refused, and `Module01` is module 1. |
| CatalogPath.ParsePath | docs/scripts/import_google_docs.py:138-175 | Fewer than four segments is exactly the length error. On success, the program is the fourth-last segment, module and day are the numbers of the third- and second-last folders, the persona plus `.json` is the file name, both ordering keys are those derived from the names, and every number is within `int()`'s 4300-digit limit. |
| CatalogPath.ParseSegments | docs/scripts/import_google_docs.py:143-175 | Success happens exactly when every check passes, and it yields the coordinates the four segments denote. Otherwise the error is the first check to fail, in the importer's order: the program name's digits within `int()`'s limit (line 152, before any folder check), the Module folder, the Day folder, the Module and Day digit counts, the `.json` extension, and the persona name's digits. |
| CatalogPath.ReadSegments | docs/scripts/import_google_docs.py:166-175 | Once both folders have the right shape, an over-long Module number, then an over-long Day number, then a missing `.json`, then an over-long persona key is the error; otherwise the coordinates carry both numbers, the stem as persona and the derived keys, all within the limit. |
| CatalogPath.OnlyLastFourSegments | docs/scripts/import_google_docs.py:143-148 | Leading path components never affect the parse. |
| CatalogPath.ParseRenderRoundTrip | docs/scripts/import_google_docs.py:143-175 | Parsing the canonical path of canonical coordinates whose numbers `int()` reads within its limit gives those coordinates back. |
| CatalogPath.ParsedAreCanonical | docs/scripts/import_google_docs.py:150-175 | Every parsed result carries the ordering keys derived from its names. |
| CatalogPath.RenderParseNormalises | docs/scripts/import_google_docs.py:143-175 | Parse, render and parse again gives the first parse: rendering only drops leading components and leading zeros. |
| CatalogPath.LonelyScriptRejected | docs/scripts/import_google_docs.py:138-141 | A one-segment path is refused by the length check. |
| CatalogPath.NestedLonelyScriptRejected | tests/test_import_google_docs.py:32-39 | The test's file sits in pytest's `<tmp>/pytest-of-<user>/pytest-<N>/<test>0`. Under any temporary root, run number and test folder, and any user name of at most 4300 digits, that path has at least four components and is refused because `pytest-<N>` is not a Module folder, not because of its length. A user name of more digits fails earlier, on the program's ordering key. |
| CatalogPath.OversizedModuleRejected | docs/scripts/import_google_docs.py:152-166 | A Module folder of more than 4300 digits is refused as over-long once the Day folder has passed its check, whatever the file name. |
| CatalogPath.LongModuleRejected | docs/scripts/import_google_docs.py:166 | `P/Module` followed by 4301 ones, `/Day01/x.json`, is refused on its Module number. |
| CatalogPath.ScenarioPath | docs/scripts/import_google_docs.py:143-175 | `Therapy/Module01/Day01/CoachAlex01.json` parses to program Therapy with key 0, module 1, day 1, and persona CoachAlex01 with key 1. |
| Script.ValidateScript | docs/scripts/import_google_docs.py:177-181 | The script validates exactly when every record is well shaped. It then yields one turn per record, in order, with that record's role and text. Otherwise it names a bad record, every record before which is well shaped. |
| Script.ExtraKeysIgnored | docs/scripts/import_google_docs.py:55-56 | Keys outside the schema change neither the verdict nor the turn read. |
| Script.AcceptedSeqIgnored | docs/scripts/import_google_docs.py:53 | An accepted `seq` value (null, a number, a boolean, an integer string) is ignored: the record validates and reads as it would without it. |
| Script.MalformedSeqRejected | docs/scripts/import_google_docs.py:53 | A `seq` that is not an optional integer rejects the record even when role and text are fine. |
| Script.PaddedDecimalAccepted | docs/scripts/import_google_docs.py:53 | Every decimal spelling of at most 4300 characters with its sign, with or without a sign and with any whitespace around it, is accepted as `seq`. |
| Script.OverlongDecimalRefused | docs/scripts/import_google_docs.py:53 | A signed or bare decimal spelling longer than 4300 characters is refused however it is padded, so `1` followed by 4300 zeros rejects its record. |
| Script.DecimalSeqWithinLimit | docs/scripts/import_google_docs.py:53 | A bare decimal `seq` string is accepted exactly when the number is below 10 to the power 4300. |
| Script.StrayCharacterRejected | docs/scripts/import_google_docs.py:53 | A string holding a character that is not whitespace, a sign, a digit or an underscore is never accepted as `seq`. |
| Script.IntLiteralAccepted | docs/scripts/import_google_docs.py:53 | ` 7`, `-7` followed by a newline, and `1_0` are accepted as `seq`, as `int()` reads them. |
| Script.IntLiteralRefused | docs/scripts/import_google_docs.py:53 | A blank string, `+ 7`, `1__0`, `_1` and `7.5` are refused as `seq`, as `int()` refuses them. |
| Script.RecordRoundTrip | docs/scripts/import_google_docs.py:51-56 | A record with string `role` and `text` is well shaped and reads back as exactly that turn. |
| Script.ScriptRoundTrip | docs/scripts/import_google_docs.py:177-181 | Validating the role-and-text records of a list of turns gives back that list. |
| Script.OneBadRecordRejectsScript | docs/scripts/import_google_docs.py:177-181 | One bad record anywhere fails the whole script, and the error names a record at or before it. |
| Script.ValidateAppend | docs/scripts/import_google_docs.py:177-181 | Validating a concatenation is validating each part in turn: the first failure wins, with its index shifted past the records before it. |
| Script.MissingTextRejected | docs/scripts/import_google_docs.py:51-52 | A record without `text` fails the script. |
| Script.ScenarioScript | tests/test_import_google_docs.py:12-17 | The test's three records, system, user and assistant with role and text only, validate to those three turns in order. |
| Store.MergeIdempotent | docs/scripts/import_google_docs.py:189-257 | Every statement is a MERGE: running it a second time right after the first, with the same clock value for the root and turn MERGEs, changes nothing. |
| Store.ClockedMergeAddsNode | docs/scripts/import_google_docs.py:225-247 | The root and turn MERGEs carry `timestamp()` in their pattern, so running one again under another clock value leaves two Turn nodes with the same id. |
| Store.MergeCreatesNode | docs/scripts/import_google_docs.py:189-252 | After a node MERGE the node with exactly the merged properties is stored, and the Program node carries the key just SET. |
| Store.MergeEdgeWhenMatched | docs/scripts/import_google_docs.py:201-257 | An edge MERGE adds its edge exactly between the nodes its MATCH finds and no other edge. HAS_MODULE goes to every Module node with the id, whatever its key, and HAS_DAY comes from every such Module node. HAS_PERSONA, ROOTS and CHILD_OF are added only when both endpoints are stored. |
| Store.Apply | docs/scripts/import_google_docs.py:189-257 | Every statement only adds to the store. A catalog statement leaves the turns and their edges untouched, and a turn statement leaves the catalog untouched. |
| Store.Run | docs/scripts/import_google_docs.py:187-259 | A sequence of statements only adds to the store. |
| Store.RunCatalogOnly | docs/scripts/import_google_docs.py:189-222 | Catalog statements alone leave the turns and their edges as they were. |
| Store.RunChainsOnly | docs/scripts/import_google_docs.py:225-259 | Turn statements alone leave the catalog as it was. |
| Store.RunAppend | docs/scripts/import_google_docs.py:187-259 | Statements run one after another, so running a concatenation is running its halves in turn. |
| Store.RunKeepsIdsBelow | docs/scripts/import_google_docs.py:228-257 | Edges are drawn only between stored turns, so statements that create turns with ids below a bound keep every id in the store below it. |
| ImportPlan.CatalogStmts | docs/scripts/import_google_docs.py:189-222 | The catalog phase is seven statements, all of them catalog writes. |
| ImportPlan.Plan | docs/scripts/import_google_docs.py:189-259 | The plan is 9 + 2n statements for n records. The catalog phase comes first and nothing after it writes the catalog. |
| ImportPlan.CatalogPhase | docs/scripts/import_google_docs.py:189-222 | The seven upserts leave exactly the reference upserted catalog and do not touch the turns. |
| ImportPlan.UpsertIdempotent | docs/scripts/import_google_docs.py:189-222 | Upserting the same coordinates twice changes nothing: no node, edge or ordering key. |
| ImportPlan.OneNodePerCoordinate | docs/scripts/import_google_docs.py:189-222 | In a keyed catalog, after the upsert the program has the parsed key and there is exactly one Module, Day and Persona node for the coordinates. HAS_MODULE, HAS_DAY and HAS_PERSONA each have exactly one edge between them, and the catalog stays keyed. |
| ImportPlan.MismatchedKeyDuplicatesModule | docs/scripts/import_google_docs.py:197-199 | A Module node with the right id but another key is not reused, so in a store without the schema's uniqueness constraints the upsert leaves two Module nodes with that id. |
| ImportPlan.DayNodeShared | docs/scripts/import_google_docs.py:207-213 | The same day under two modules is one Day node with a HAS_DAY edge from each module. |
| ImportPlan.RunKeepsKeyed | docs/scripts/import_google_docs.py:197-222 | Statements that write Module and Day keys equal to their ids, and Persona keys derived from their names, keep a keyed catalog keyed. |
| ImportPlan.PlanKeyed | docs/scripts/import_google_docs.py:197-218 | Every statement of the plan for parsed coordinates keeps that key discipline. |
| ImportPlan.RootPhase | docs/scripts/import_google_docs.py:225-231 | Once the persona exists, the root phase adds exactly the root anchor and its ROOTS edge. |
| ImportPlan.ChainPhase | docs/scripts/import_google_docs.py:235-259 | With the root stored, the first n turn pairs add exactly the reference chain: turn i holds record i under its predecessor (the root for the first), with one CHILD_OF edge to that predecessor. |
| ImportPlan.ChainNodesHas | docs/scripts/import_google_docs.py:238-252 | Every one of the first n turns is in the reference chain. |
| ImportPlan.ChainNodesIds | docs/scripts/import_google_docs.py:236-252 | The chain has one node per record: its ids are consecutive, and each node is the reference turn for its id. |
| ImportPlan.ChainEdgesShape | docs/scripts/import_google_docs.py:254-259 | There is exactly one CHILD_OF edge per turn, from each turn to its predecessor and from the first turn to the root. |
| ImportPlan.ChainStmtsPrefix | docs/scripts/import_google_docs.py:235-259 | The statements for the first j records are a prefix of those for the first n. |
| ImportPlan.WriteChain | docs/scripts/import_google_docs.py:232-259 | The loop with its parent cursor runs the chain statements. When the root is stored it adds exactly the reference chain. The cursor ends on the last turn, or on the root for an empty script. |
| Importer.ImportFile | docs/scripts/import_google_docs.py:129-264 | A bad path or bad record fails with that error and leaves the world unchanged. Success happens exactly when both are fine and the store refuses nothing. It returns the next id and advances the supply past the root and the turns. The store only grows. |
| Importer.ImportEffect | docs/scripts/import_google_docs.py:182-264 | A successful import returns the job id and leaves exactly the upserted catalog, plus one root with its ROOTS edge, plus the reference chain. |
| Importer.PlanEffect | docs/scripts/import_google_docs.py:187-259 | Running the whole plan gives that planned store. |
| Importer.PrefixEffect | docs/scripts/import_google_docs.py:187-259 | After the catalog, the root pair and j turn pairs, the store holds the upserted catalog, the root and the first j turns with their edges. |
| Importer.PlanCreatesBelow | docs/scripts/import_google_docs.py:182-252 | The plan mints only ids below the supply's next value. |
| Importer.ChainCreatesBelow | docs/scripts/import_google_docs.py:235-252 | The turn statements mint only ids below the end of the chain. |
| Importer.ImportKeepsFresh | docs/scripts/import_google_docs.py:182-252 | Whatever succeeds or fails, every id in the store stays below the supply's next value, so later ids are unused. |
| Importer.PlannedTurnCount | docs/scripts/import_google_docs.py:225-252 | The plan adds exactly one root and one turn per record, all of them new. |
| Importer.PlannedTurnsInOrder | docs/scripts/import_google_docs.py:235-252 | Turn i carries record i's role and text, is accepted, and has its predecessor (the root for the first) as parent. |
| Importer.PlannedEdgesLinear | docs/scripts/import_google_docs.py:254-259 | The new CHILD_OF edges are exactly one per new turn, each to the turn minted just before it: one linear path back to the root. |
| Importer.PlannedJobIdUnused | docs/scripts/import_google_docs.py:182-185 | No turn in the store carries the job id. |
| Importer.PlannedAddsOneChain | docs/scripts/import_google_docs.py:182-259 | The plan adds one chain: the count, order, edge and job-id facts together. |
| Importer.ImportAddsOneChain | docs/scripts/import_google_docs.py:129-264 | A successful import into a fresh world returns the next id and adds exactly one fresh root and one linear chain of turns in record order. |
| Importer.SequentialJobIdsDiffer | docs/scripts/import_google_docs.py:182 | Two successful imports in a row return different job ids. |
| Importer.ReimportKeepsCatalog | docs/scripts/import_google_docs.py:189-222 | Importing the same path again, with any script, leaves the catalog as the first import left it. |
| Importer.PlannedTwiceTwoRoots | docs/scripts/import_google_docs.py:225-231 | Two plans for one persona add two different roots, each with its own ROOTS edge from the same Persona node, and no other ROOTS edge. |
| Importer.TwoImports | docs/scripts/import_google_docs.py:182-264 | Two successful imports of one path reach the store the two plans describe, with the second plan's ids after the first's. |
| Importer.ReimportAddsSecondRoot | docs/scripts/import_google_docs.py:225-231 | The root is not idempotent: re-importing a persona adds a second, different root and a second ROOTS edge. |
| Importer.BadRecordWritesNothing | docs/scripts/import_google_docs.py:177-181 | One bad record fails the import before any write: world, store and id supply are unchanged. Unless the path was refused first, the error names a bad record at or before it. |
| Importer.StoreFailureInCatalog | docs/scripts/import_google_docs.py:187-222 | A store failure during the catalog upserts reports that step and leaves the turns untouched. |
| Importer.StoreFailureKeepsPrefix | docs/scripts/import_google_docs.py:187-259 | A store failure in the turn phase reports that step. It keeps the upserted catalog, the root with its ROOTS edge and every turn pair written before the failure. |
| Importer.PlannedPrefixKept | docs/scripts/import_google_docs.py:187-259 | Any prefix of the plan that covers j turn pairs keeps the catalog, the root and those j turns with their edges. |
| Importer.LaterWritesKeepPrefix | docs/scripts/import_google_docs.py:235-259 | Further turn writes never undo the turns already written. |
| Importer.ImportKeepsKeyed | docs/scripts/import_google_docs.py:197-222 | Imports keep the catalog keyed, whatever the store refuses, so one node per coordinate keeps holding. |
| Importer.WorkedImport | docs/scripts/import_google_docs.py:129-264 | Importing a two-record script for `Therapy/Module01/Day01/CoachAlex01.json` into an empty store returns job 0. It leaves exactly one Program, Module, Day and Persona node with their three edges, plus the root, and the chain root ← system ← user. |
| Importer.WorkedPlan | docs/scripts/import_google_docs.py:189-259 | The planned store for the worked import, written out node by node. |

## Left out

- Connecting to the store and the session lifecycle: the connection is opened before the path is checked, and the session and driver are not closed when path or record validation raises. Neither is modelled, because the model has no connection state.
- The Cypher text itself. Each statement is modelled by its effect as a MERGE on its property pattern; the query language is not modelled.
- Reading the file and decoding JSON. A script is the already-decoded list of records, and a non-object item, which raises `TypeError` rather than a validation error, is not modelled.
- Splitting the path string into components. The path arrives already split; for an absolute path the first component is `/`.
- Unicode digits. Python's `isdigit` and `int` also accept non-ASCII digits, including some `isdigit` accepts but `int` refuses; only ASCII digits are modelled.
- Lenient (v1-style) type coercion of `role` and `text`, and floating-point `seq` values. The validator follows strict string checks for `role` and `text`. For `seq` it accepts null, numbers, booleans and integer strings, and rejects everything else, as the field's type demands, even though the class comment calls the field ignored.
- Script.MalformedSeqRejected: integer strings follow the ASCII part of Python's `int()` grammar: whitespace from tab to carriage return and space around the number, an optional sign, and digits in groups joined by single underscores. Other forms some pydantic releases also accept are not modelled, so the lemma may call them rejected. These are a trailing `.0`, the separator characters 0x1C to 0x1F and non-ASCII whitespace or digits.
- Script.ValidateScript: the importer reports every bad record with the same message. The model's error also carries the index of the first bad record, which the source does not report.
- Importer.ImportFile: integer width. Module and Day numbers and the Program and Persona ordering keys are bounded only by `int()`'s 4300-digit limit, but the store's driver refuses integer parameters of 2^63 or more. A path such as `P/Module99999999999999999999/Day01/x.json` is importable in the model, while the source fails at the Module upsert. Such a refusal is modelled only as a store failure at a chosen statement (`rejectAt`), not derived from the values.
- The uuid formats and the 36-character job id string. Ids are natural numbers from a counter, and only their freshness is modelled.
- `timestamp()` is evaluated per statement by the store. The model uses one clock value per import, so the timestamps of root and turns are equal in the model. Store.MergeIdempotent holds only for a repeat under the same clock value; Store.ClockedMergeAddsNode states what a repeat under a later clock does.
- The store's uniqueness constraints on the Program, Module, Day, Persona and Turn ids (tests/test_schema.py). The model's store has no schema, so a MERGE those constraints would refuse, such as the one in ImportPlan.MismatchedKeyDuplicatesModule, adds a node instead. A refusal they cause is reachable only as a store failure at a chosen statement (`rejectAt`).
- The 4300-digit limit of `int()` is the default of Python 3.11 and later. Older releases have no limit, and the limit can be changed through the environment; the model fixes the default.
- Script.PaddedDecimalAccepted: the length limit on integer strings is the trimmed string's length, at most 4300 characters, as pydantic's own integer parser counts it. Python's `int()` counts only the digits, and older pydantic releases count the untrimmed string, so strings within a few characters of the limit may be judged differently there.
- The command-line entry point and the other test files, which exercise other parts of the repository.

=== FILE: catalog_path.dfy ===
/** The catalog path parser: the coordinates of a script are read from the last
    four segments of its path, `<Program>/Module<NN>/Day<NN>/<persona>.json`.
    The path arrives already split into segments; nothing else of the path is read. */
module CatalogPath {
  import opened Wrappers
  import opened Digits

  const ModulePrefix: string := "Module"
  const DayPrefix: string := "Day"
  const ScriptExtension: string := ".json"

  /** Why a path was refused; the segment named is the one at fault. */
  datatype PathFormatError =
    | TooFewSegments(count: nat)
    | BadModuleSegment(segment: string)
    | BadDaySegment(segment: string)
    | BadPersonaFile(fileName: string)
    | OversizedNumber(segment: string)

  /** Catalog coordinates with their ordering keys. */
  datatype Coords = Coords(
    program: string, programSeq: nat,
    moduleId: nat,
    dayId: nat,
    persona: string, personaSeq: nat)

  predicate StartsWith(s: string, prefix: string) {
    |prefix| <= |s| && s[..|prefix|] == prefix
  }

  predicate EndsWith(s: string, suffix: string) {
    |suffix| <= |s| && s[|s| - |suffix|..] == suffix
  }

  /** A numbered folder name: the prefix, then one or more digits and nothing else.
      The number is the value of those digits; whether `int()` converts that many
      digits is checked afterwards, by ParseSegments. */
  function ParseNumbered(prefix: string, segment: string): (r: Option<nat>)
    ensures r.Some? ==> StartsWith(segment, prefix) && |segment| > |prefix|
    ensures r.Some? ==>
      && segment == prefix + segment[|prefix|..]
      && AllDigits(segment[|prefix|..])
      && r.value == DecimalValue(segment[|prefix|..])
      && r.value < Pow10(|segment| - |prefix|)
    ensures r.None? ==>
      || !StartsWith(segment, prefix)
      || |segment| == |prefix|
      || exists i :: |prefix| <= i < |segment| && !IsDigit(segment[i])
  {
    if StartsWith(segment, prefix) && |segment| > |prefix| && AllDigits(segment[|prefix|..])
    then Some(DecimalValue(segment[|prefix|..]))
    else None
  }

  /** Parses the last four segments of a path into catalog coordinates. */
  function ParsePath(parts: seq<string>): (r: Result<Coords, PathFormatError>)
    ensures |parts| < 4 <==> r == Failure(TooFewSegments(|parts|))
    ensures r.Success? ==> |parts| >= 4 && r.value.program == parts[|parts| - 4]
    ensures r.Success? ==> ParseNumbered(ModulePrefix, parts[|parts| - 3]) == Some(r.value.moduleId)
    ensures r.Success? ==> ParseNumbered(DayPrefix, parts[|parts| - 2]) == Some(r.value.dayId)
    ensures r.Success? ==> r.value.persona + ScriptExtension == parts[|parts| - 1]
    ensures r.Success? ==> Canonical(r.value) && WithinIntLimit(r.value)
  {
    if |parts| < 4 then Failure(TooFewSegments(|parts|))
    else ParseSegments(parts[|parts| - 4], parts[|parts| - 3], parts[|parts| - 2], parts[|parts| - 1])
  }

  /** The four catalog segments, checked in the importer's order: the program's
      ordering key is read first, then the Module and Day folders are checked,
      their numbers read, the script extension checked, and the persona's
      ordering key read. Every number read is subject to `int()`'s digit limit;
      the error names the segment whose digits exceed it. */
  function ParseSegments(program: string, moduleFolder: string, dayFolder: string, fileName: string)
    : (r: Result<Coords, PathFormatError>)
    ensures r.Failure? ==> !r.error.TooFewSegments?
    ensures r.Success? <==>
      && FitsInt(KeepDigits(program))
      && ParseNumbered(ModulePrefix, moduleFolder).Some? && ParseNumbered(DayPrefix, dayFolder).Some?
      && FolderFits(ModulePrefix, moduleFolder) && FolderFits(DayPrefix, dayFolder)
      && EndsWith(fileName, ScriptExtension) && FitsInt(KeepDigits(Stem(fileName)))
    ensures !FitsInt(KeepDigits(program)) ==> r == Failure(OversizedNumber(program))
    ensures FitsInt(KeepDigits(program)) && ParseNumbered(ModulePrefix, moduleFolder).None? ==>
      r == Failure(BadModuleSegment(moduleFolder))
    ensures (FitsInt(KeepDigits(program)) && ParseNumbered(ModulePrefix, moduleFolder).Some?
             && ParseNumbered(DayPrefix, dayFolder).None?) ==> r == Failure(BadDaySegment(dayFolder))
    ensures (FitsInt(KeepDigits(program)) && ParseNumbered(ModulePrefix, moduleFolder).Some?
             && ParseNumbered(DayPrefix, dayFolder).Some?) ==> (
      && (!FolderFits(ModulePrefix, moduleFolder) ==> r == Failure(OversizedNumber(moduleFolder)))
      && (FolderFits(ModulePrefix, moduleFolder) && !FolderFits(DayPrefix, dayFolder) ==>
            r == Failure(OversizedNumber(dayFolder)))
      && ((FolderFits(ModulePrefix, moduleFolder) && FolderFits(DayPrefix, dayFolder)
           && !EndsWith(fileName, ScriptExtension)) ==> r == Failure(BadPersonaFile(fileName)))
      && ((FolderFits(ModulePrefix, moduleFolder) && FolderFits(DayPrefix, dayFolder)
           && EndsWith(fileName, ScriptExtension) && !FitsInt(KeepDigits(Stem(fileName)))) ==>
            r == Failure(OversizedNumber(fileName))))
    ensures r.Success? ==> (
      && r.value.program == program
      && ParseNumbered(ModulePrefix, moduleFolder) == Some(r.value.moduleId)
      && ParseNumbered(DayPrefix, dayFolder) == Some(r.value.dayId)
      && r.value.persona + ScriptExtension == fileName
      && Canonical(r.value) && WithinIntLimit(r.value))
  {
    if !FitsInt(KeepDigits(program)) then Failure(OversizedNumber(program))
    else
      match ParseNumbered(ModulePrefix, moduleFolder)
      case None => Failure(BadModuleSegment(moduleFolder))
      case Some(moduleSeq) =>
        match ParseNumbered(DayPrefix, dayFolder)
        case None => Failure(BadDaySegment(dayFolder))
        case Some(daySeq) => ReadSegments(program, moduleFolder, moduleSeq, dayFolder, daySeq, fileName)
  }

  /** The rest of the parse once both folders have the right shape: their numbers
      are read, then the script extension is checked and the persona's key read. */
  function ReadSegments(program: string, moduleFolder: string, moduleSeq: nat, dayFolder: string, daySeq: nat,
                        fileName: string): (r: Result<Coords, PathFormatError>)
    requires FitsInt(KeepDigits(program))
    requires ParseNumbered(ModulePrefix, moduleFolder) == Some(moduleSeq)
    requires ParseNumbered(DayPrefix, dayFolder) == Some(daySeq)
    ensures r.Success? <==>
      && FolderFits(ModulePrefix, moduleFolder) && FolderFits(DayPrefix, dayFolder)
      && EndsWith(fileName, ScriptExtension) && FitsInt(KeepDigits(Stem(fileName)))
    ensures !FolderFits(ModulePrefix, moduleFolder) ==> r == Failure(OversizedNumber(moduleFolder))
    ensures FolderFits(ModulePrefix, moduleFolder) && !FolderFits(DayPrefix, dayFolder) ==>
      r == Failure(OversizedNumber(dayFolder))
    ensures (FolderFits(ModulePrefix, moduleFolder) && FolderFits(DayPrefix, dayFolder)
             && !EndsWith(fileName, ScriptExtension)) ==> r == Failure(BadPersonaFile(fileName))
    ensures (FolderFits(ModulePrefix, moduleFolder) && FolderFits(DayPrefix, dayFolder)
             && EndsWith(fileName, ScriptExtension) && !FitsInt(KeepDigits(Stem(fileName)))) ==>
      r == Failure(OversizedNumber(fileName))
    ensures r.Success? ==> r == Success(Coords(program, OrderingKey(program), moduleSeq, daySeq, Stem(fileName),
                                               OrderingKey(Stem(fileName))))
    ensures r.Success? ==> WithinIntLimit(r.value)
  {
    if !FolderFits(ModulePrefix, moduleFolder) then Failure(OversizedNumber(moduleFolder))
    else if !FolderFits(DayPrefix, dayFolder) then Failure(OversizedNumber(dayFolder))
    else if !EndsWith(fileName, ScriptExtension) then Failure(BadPersonaFile(fileName))
    else if !FitsInt(KeepDigits(Stem(fileName))) then Failure(OversizedNumber(fileName))
    else
      Pow10Monotone(|moduleFolder| - |ModulePrefix|, MaxIntDigits);
      Pow10Monotone(|dayFolder| - |DayPrefix|, MaxIntDigits);
      var persona := Stem(fileName);
      Success(Coords(program, OrderingKey(program), moduleSeq, daySeq, persona, OrderingKey(persona)))
  }

  /** The digits after a folder's prefix are few enough for `int()`. */
  predicate FolderFits(prefix: string, folder: string) {
    |folder| - |prefix| <= MaxIntDigits
  }

  /** A script file name without its extension: the persona name. */
  function Stem(fileName: string): (stem: string)
    requires EndsWith(fileName, ScriptExtension)
    ensures stem + ScriptExtension == fileName
  {
    fileName[..|fileName| - |ScriptExtension|]
  }

  /** The canonical path of some coordinates: the inverse of ParsePath. */
  function RenderPath(c: Coords): (parts: seq<string>)
    ensures |parts| == 4
  {
    [c.program, ModulePrefix + NatToDecimal(c.moduleId), DayPrefix + NatToDecimal(c.dayId), c.persona + ScriptExtension]
  }

  /** Coordinates whose ordering keys are the ones derived from their names. */
  predicate Canonical(c: Coords) {
    c.programSeq == OrderingKey(c.program) && c.personaSeq == OrderingKey(c.persona)
  }

  /** Coordinates every number of which `int()` reads within its digit limit. */
  predicate WithinIntLimit(c: Coords) {
    && FitsInt(KeepDigits(c.program)) && FitsInt(KeepDigits(c.persona))
    && c.moduleId < Pow10(MaxIntDigits) && c.dayId < Pow10(MaxIntDigits)
  }

  // ---------------------------------------------------------------------------
  // Properties

  /** The folder grammar stated without slicing: accepted exactly when the segment is
      the prefix followed by a non-empty run of digits, and the number is theirs. */
  lemma ParseNumberedGrammar(prefix: string, digits: string)
    ensures ParseNumbered(prefix, prefix + digits).Some? <==> digits != [] && AllDigits(digits)
    ensures digits != [] && AllDigits(digits) ==> ParseNumbered(prefix, prefix + digits) == Some(DecimalValue(digits))
  {
    assert (prefix + digits)[..|prefix|] == prefix;
    assert (prefix + digits)[|prefix|..] == digits;
  }

  /** A segment that does not start with the prefix is never accepted. */
  lemma ParseNumberedNeedsPrefix(prefix: string, segment: string)
    requires !StartsWith(segment, prefix)
    ensures ParseNumbered(prefix, segment) == None
  {
  }

  /** Leading zeros are accepted and do not change the number. */
  lemma ParseNumberedZeroPadded(prefix: string, n: nat)
    ensures ParseNumbered(prefix, prefix + "0" + NatToDecimal(n)) == Some(n)
  {
    LeadingZero(NatToDecimal(n));
    assert prefix + "0" + NatToDecimal(n) == prefix + ("0" + NatToDecimal(n));
    ParseNumberedGrammar(prefix, "0" + NatToDecimal(n));
  }

  /** Only the last four segments are read: leading components never matter. */
  lemma OnlyLastFourSegments(lead: seq<string>, parts: seq<string>)
    requires |parts| >= 4
    ensures ParsePath(lead + parts) == ParsePath(parts)
  {
    var all := lead + parts;
    var n, m := |all|, |parts|;
    assert all[n - 4] == parts[m - 4] && all[n - 3] == parts[m - 3];
    assert all[n - 2] == parts[m - 2] && all[n - 1] == parts[m - 1];
    LastFour(all);
    LastFour(parts);
  }

  /** ParsePath looks at the last four segments only. */
  lemma LastFour(parts: seq<string>)
    requires |parts| >= 4
    ensures ParsePath(parts) == ParseSegments(parts[|parts| - 4], parts[|parts| - 3], parts[|parts| - 2], parts[|parts| - 1])
  {
  }

  /** Round trip: rendering canonical coordinates within `int()`'s limit and
      parsing the result gives them back. */
  lemma ParseRenderRoundTrip(c: Coords)
    requires Canonical(c) && WithinIntLimit(c)
    ensures ParsePath(RenderPath(c)) == Success(c)
  {
    var parts := RenderPath(c);
    ParseNumberedGrammar(ModulePrefix, NatToDecimal(c.moduleId));
    ParseNumberedGrammar(DayPrefix, NatToDecimal(c.dayId));
    DecimalLength(c.moduleId, MaxIntDigits);
    DecimalLength(c.dayId, MaxIntDigits);
    var fileName := c.persona + ScriptExtension;
    assert fileName[|fileName| - |ScriptExtension|..] == ScriptExtension;
    assert Stem(fileName) == c.persona;
  }

  /** Every successful parse yields canonical coordinates. */
  lemma ParsedAreCanonical(parts: seq<string>)
    requires ParsePath(parts).Success?
    ensures Canonical(ParsePath(parts).value)
  {
  }

  /** Parsing then rendering normalises the path: the rendered path parses to the
      same coordinates (it drops leading components and leading zeros). */
  lemma RenderParseNormalises(parts: seq<string>)
    requires ParsePath(parts).Success?
    ensures ParsePath(RenderPath(ParsePath(parts).value)) == ParsePath(parts)
  {
    ParseRenderRoundTrip(ParsePath(parts).value);
  }

  /** A single-segment path such as `lonely_script.json` fails on its length. */
  lemma LonelyScriptRejected()
    ensures ParsePath(["lonely_script.json"]) == Failure(TooFewSegments(1))
  {
  }

  /** The same file in pytest's temporary directory `<tmp>/pytest-of-<user>/pytest-<N>/<test>0`
      has enough segments, whatever the temporary root; it is refused instead
      because the folder three segments from the end, `pytest-<N>`, is not a
      Module folder. Only a user name of more digits than `int()` reads fails
      earlier, on the program's ordering key. */
  lemma NestedLonelyScriptRejected(tmp: seq<string>, user: string, n: string, testDir: string)
    ensures var r := ParsePath(tmp + ["pytest-of-" + user, "pytest-" + n, testDir, "lonely_script.json"]);
      && (FitsInt(KeepDigits(user)) ==> r == Failure(BadModuleSegment("pytest-" + n)))
      && (!FitsInt(KeepDigits(user)) ==> r == Failure(OversizedNumber("pytest-of-" + user)))
  {
    var parts := ["pytest-of-" + user, "pytest-" + n, testDir, "lonely_script.json"];
    OnlyLastFourSegments(tmp, parts);
    LastFour(parts);
    PytestSegments(user, n, testDir);
  }

  lemma PytestSegments(user: string, n: string, testDir: string)
    ensures var r := ParseSegments("pytest-of-" + user, "pytest-" + n, testDir, "lonely_script.json");
      && (FitsInt(KeepDigits(user)) ==> r == Failure(BadModuleSegment("pytest-" + n)))
      && (!FitsInt(KeepDigits(user)) ==> r == Failure(OversizedNumber("pytest-of-" + user)))
  {
    PytestUserDigits(user);
    PytestNotModule(n);
  }

  lemma PytestUserDigits(user: string)
    ensures KeepDigits("pytest-of-" + user) == KeepDigits(user)
  {
    KeepDigitsAppend("pytest-of-", user);
    NoDigitsKeyZero("pytest-of-");
  }

  lemma PytestNotModule(n: string)
    ensures ParseNumbered(ModulePrefix, "pytest-" + n) == None
  {
    var folder := "pytest-" + n;
    assert folder[..6] != ModulePrefix by {
      assert folder[..6][0] == folder[0] == 'p';
    }
  }

  /** A well-formed Module folder with more digits than `int()` reads is refused,
      once the Day folder has passed its check, whatever the file name. */
  lemma OversizedModuleRejected(program: string, digits: string, dayFolder: string, fileName: string)
    requires FitsInt(KeepDigits(program))
    requires digits != [] && AllDigits(digits) && !FitsInt(digits)
    requires ParseNumbered(DayPrefix, dayFolder).Some?
    ensures ParseSegments(program, ModulePrefix + digits, dayFolder, fileName)
      == Failure(OversizedNumber(ModulePrefix + digits))
  {
    ParseNumberedGrammar(ModulePrefix, digits);
  }

  /** `P/Module1…1/Day01/x.json` with 4301 ones is refused on its Module number. */
  lemma LongModuleRejected()
    ensures ParsePath(["P", ModulePrefix + seq(4301, _ => '1'), "Day01", "x.json"])
      == Failure(OversizedNumber(ModulePrefix + seq(4301, _ => '1')))
  {
    var digits := seq(4301, _ => '1');
    assert KeepDigits("P") == [];
    ScenarioDay();
    OversizedModuleRejected("P", digits, "Day01", "x.json");
    LastFour(["P", ModulePrefix + digits, "Day01", "x.json"]);
  }

  /** Folder names around the importer's `Module##` rule: a non-digit suffix and
      an empty suffix are refused, a zero-padded number is read as its value. */
  lemma ModuleFolderExamples()
    ensures ParseNumbered(ModulePrefix, "ModuleA1") == None
    ensures ParseNumbered(ModulePrefix, "Module") == None
    ensures ParseNumbered(ModulePrefix, "Module01") == Some(1)
  {
    assert "ModuleA1"[..6] == ModulePrefix;
    assert "ModuleA1"[6..][0] == 'A';
    ParseNumberedZeroPadded(ModulePrefix, 1);
    assert ModulePrefix + "0" + NatToDecimal(1) == "Module01";
  }

  /** A full catalog path: a program without digits, module and day one, and a
      persona whose name ends in 01. */
  lemma ScenarioPath()
    ensures ParsePath(["Therapy", "Module01", "Day01", "CoachAlex01.json"])
      == Success(Coords("Therapy", 0, 1, 1, "CoachAlex01", 1))
  {
    var parts := ["Therapy", "Module01", "Day01", "CoachAlex01.json"];
    assert parts[|parts| - 4] == "Therapy" && parts[|parts| - 3] == "Module01";
    assert parts[|parts| - 2] == "Day01" && parts[|parts| - 1] == "CoachAlex01.json";
    ScenarioSegments();
  }

  lemma ScenarioSegments()
    ensures ParseSegments("Therapy", "Module01", "Day01", "CoachAlex01.json")
      == Success(Coords("Therapy", 0, 1, 1, "CoachAlex01", 1))
  {
    ModuleFolderExamples();
    ScenarioDay();
    ScenarioKeys();
    ScenarioFile();
  }

  lemma ScenarioDay()
    ensures ParseNumbered(DayPrefix, "Day01") == Some(1)
  {
    ParseNumberedZeroPadded(DayPrefix, 1);
    assert DayPrefix + "0" + NatToDecimal(1) == "Day01";
  }

  lemma ScenarioKeys()
    ensures OrderingKey("Therapy") == 0 && OrderingKey("CoachAlex01") == 1
  {
    NoDigitsKeyZero("Therapy");
    assert OrderingKey("CoachAlex" + "01") == 1 by {
      CoachKey();
    }
    assert "CoachAlex" + "01" == "CoachAlex01";
  }

  lemma CoachKey()
    ensures OrderingKey("CoachAlex" + "01") == 1
  {
    StemThenNumberKey("CoachAlex", "01");
    var digits := "01";
    assert digits[..1] == "0";
  }

  lemma ScenarioFile()
    ensures EndsWith("CoachAlex01.json", ScriptExtension)
    ensures "CoachAlex01.json"[..|"CoachAlex01.json"| - |ScriptExtension|] == "CoachAlex01"
  {
  }
}

=== FILE: digits.dfy ===
/** Decimal digits: the filter that keeps the digit characters of a name, the
    value of a digit string, and the "ordering key" the importer derives from
    program and persona names (strip every non-digit, read what is left as a
    decimal number, 0 when nothing is left). Only ASCII digits are modelled. */
module Digits {

  predicate IsDigit(c: char) {
    '0' <= c <= '9'
  }

  predicate AllDigits(s: string) {
    forall i :: 0 <= i < |s| ==> IsDigit(s[i])
  }

  /** Python's default limit on integer string conversion: `int()` raises
      ValueError for a string of more digits than this. */
  const MaxIntDigits: nat := 4300

  /** A digit string `int()` converts under that limit. */
  predicate FitsInt(ds: string) {
    |ds| <= MaxIntDigits
  }

  function DigitValue(c: char): (d: nat)
    requires IsDigit(c)
    ensures d < 10
  {
    (c as int) - ('0' as int)
  }

  function DigitChar(d: nat): (c: char)
    requires d < 10
    ensures IsDigit(c) && DigitValue(c) == d
  {
    (('0' as int) + d) as char
  }

  function Pow10(k: nat): (p: nat)
    ensures p >= 1
  {
    if k == 0 then 1 else 10 * Pow10(k - 1)
  }

  /** The number a non-empty or empty digit string denotes, most significant digit first. */
  function DecimalValue(ds: string): (n: nat)
    requires AllDigits(ds)
    ensures n < Pow10(|ds|)
  {
    if |ds| == 0 then 0
    else 10 * DecimalValue(ds[..|ds| - 1]) + DigitValue(ds[|ds| - 1])
  }

  /** The shortest decimal spelling of n (no leading zeros, "0" for zero). */
  function NatToDecimal(n: nat): (ds: string)
    ensures AllDigits(ds) && |ds| > 0
    ensures DecimalValue(ds) == n
    ensures |ds| > 1 ==> ds[0] != '0'
  {
    if n < 10 then [DigitChar(n)]
    else
      var prefix := NatToDecimal(n / 10);
      var ds := prefix + [DigitChar(n % 10)];
      assert ds[..|ds| - 1] == prefix;
      ds
  }

  /** The shortest spelling of n fits in k digits exactly when n is below 10 to
      the power k. */
  lemma {:induction false} DecimalLength(n: nat, k: nat)
    requires k >= 1
    ensures |NatToDecimal(n)| <= k <==> n < Pow10(k)
    decreases k
  {
    if n >= 10 && k >= 2 {
      DecimalLength(n / 10, k - 1);
    } else if n >= 10 {
      assert Pow10(1) == 10;
    } else {
      PowAtLeastTen(k);
    }
  }

  /** Powers of ten grow with the exponent. */
  lemma {:induction false} Pow10Monotone(a: nat, b: nat)
    requires a <= b
    ensures Pow10(a) <= Pow10(b)
    decreases b
  {
    if a < b {
      Pow10Monotone(a, b - 1);
    }
  }

  lemma {:induction false} PowAtLeastTen(k: nat)
    requires k >= 1
    ensures Pow10(k) >= 10
  {
    if k > 1 {
      PowAtLeastTen(k - 1);
    }
  }

  /** Every digit character of s, in order; nothing else. */
  function KeepDigits(s: string): (ds: string)
    ensures AllDigits(ds) && |ds| <= |s|
    ensures forall c :: c in ds <==> c in s && IsDigit(c)
  {
    if |s| == 0 then []
    else (if IsDigit(s[0]) then [s[0]] else []) + KeepDigits(s[1..])
  }

  /** The ordering key of a name: its digits read as one decimal number, or 0
      when the name has no digit at all. The fallback agrees with the value of
      the empty digit string, so the key is always the value of the name's
      digits, and it has no more decimal places than the name has digits. */
  function OrderingKey(name: string): (k: nat)
    ensures k == DecimalValue(KeepDigits(name))
    ensures k < Pow10(|KeepDigits(name)|)
  {
    var ds := KeepDigits(name);
    if ds == [] then 0 else DecimalValue(ds)
  }

  // ---------------------------------------------------------------------------
  // Properties

  /** Keeping digits distributes over concatenation: the filter reads the name left to right. */
  lemma {:induction false} KeepDigitsAppend(a: string, b: string)
    ensures KeepDigits(a + b) == KeepDigits(a) + KeepDigits(b)
  {
    if |a| == 0 {
      assert a + b == b;
    } else {
      assert (a + b)[0] == a[0];
      assert (a + b)[1..] == a[1..] + b;
      KeepDigitsAppend(a[1..], b);
    }
  }

  /** A digit string is its own digit filter. */
  lemma {:induction false} KeepDigitsOfDigits(ds: string)
    requires AllDigits(ds)
    ensures KeepDigits(ds) == ds
  {
    if |ds| > 0 {
      KeepDigitsOfDigits(ds[1..]);
    }
  }

  lemma AllDigitsAppend(a: string, b: string)
    requires AllDigits(a) && AllDigits(b)
    ensures AllDigits(a + b)
  {
    forall i | 0 <= i < |a + b| ensures IsDigit((a + b)[i]) {
      if i < |a| { assert (a + b)[i] == a[i]; } else { assert (a + b)[i] == b[i - |a|]; }
    }
  }

  /** Appending digits shifts the value: the digits of the tail are the low-order ones. */
  lemma {:induction false} DecimalValueAppend(a: string, b: string)
    requires AllDigits(a) && AllDigits(b)
    ensures AllDigits(a + b)
    ensures DecimalValue(a + b) == DecimalValue(a) * Pow10(|b|) + DecimalValue(b)
  {
    AllDigitsAppend(a, b);
    if |b| == 0 {
      assert a + b == a;
    } else {
      var b' := b[..|b| - 1];
      var last := b[|b| - 1];
      assert (a + b)[..|a + b| - 1] == a + b';
      assert (a + b)[|a + b| - 1] == last;
      AllDigitsAppend(a, b');
      DecimalValueAppend(a, b');
      ShiftArith(DecimalValue(a), DecimalValue(b'), DigitValue(last), Pow10(|b'|));
    }
  }

  lemma ShiftArith(x: nat, y: nat, d: nat, p: nat)
    ensures 10 * (x * p + y) + d == x * (10 * p) + (10 * y + d)
  {
  }

  /** Leading zeros do not change the value, so "01" and "1" name the same number. */
  lemma LeadingZero(ds: string)
    requires AllDigits(ds)
    ensures AllDigits("0" + ds) && DecimalValue("0" + ds) == DecimalValue(ds)
  {
    DecimalValueAppend("0", ds);
  }

  /** The ordering key of a concatenation: the key of the head shifted past the
      digits of the tail, plus the key of the tail. */
  lemma OrderingKeyAppend(a: string, b: string)
    ensures OrderingKey(a + b) == OrderingKey(a) * Pow10(|KeepDigits(b)|) + OrderingKey(b)
  {
    KeepDigitsAppend(a, b);
    DecimalValueAppend(KeepDigits(a), KeepDigits(b));
  }

  /** Decimal spelling and decimal value are inverse: a number's spelling has that
      number as its ordering key. */
  lemma OrderingKeyOfDecimal(n: nat)
    ensures OrderingKey(NatToDecimal(n)) == n
  {
    KeepDigitsOfDigits(NatToDecimal(n));
  }

  /** A name without digit characters has ordering key 0. */
  lemma NoDigitsKeyZero(name: string)
    requires forall i :: 0 <= i < |name| ==> !IsDigit(name[i])
    ensures KeepDigits(name) == [] && OrderingKey(name) == 0
  {
  }

  /** The usual shape of a program or persona name, a digit-free stem followed by
      a number, has that number as its ordering key. */
  lemma StemThenNumberKey(stem: string, digits: string)
    requires forall i :: 0 <= i < |stem| ==> !IsDigit(stem[i])
    requires AllDigits(digits) && digits != []
    ensures OrderingKey(stem + digits) == DecimalValue(digits)
  {
    assert KeepDigits(stem + digits) == digits by {
      NoDigitsKeyZero(stem);
      KeepDigitsAppend(stem, digits);
      KeepDigitsOfDigits(digits);
    }
  }

  /** The examples the importer's comments and tests give. */
  lemma OrderingKeyExamples()
    ensures OrderingKey("Mindfulness" + "101") == 101
    ensures OrderingKey("test_program") == 0
  {
    assert OrderingKey("Mindfulness" + "101") == 101 by {
      StemThenNumberKey("Mindfulness", "101");
      Value101();
    }
    NoDigitsKeyZero("test_program");
  }

  lemma Value101()
    ensures DecimalValue("101") == 101
  {
    var digits := "101";
    assert digits[..2] == "10" && digits[..2][..1] == "1";
    assert DecimalValue("1") == 1;
  }
}

=== FILE: import_plan.dfy ===
/** The statement plan of one import and its effect on the store, phase by phase:
    the catalog upserts, the root anchor, and the chain of turns. */
module ImportPlan {
  import opened Wrappers
  import opened CatalogPath
  import opened Script
  import opened Store

  function ModuleOf(c: Coords): ModuleNode { ModuleNode(c.moduleId, c.moduleId) }
  function DayOf(c: Coords): DayNode { DayNode(c.dayId, c.dayId) }
  function PersonaOf(c: Coords): PersonaNode { PersonaNode(c.persona, c.personaSeq) }

  /** Program, Module + HAS_MODULE, Day + HAS_DAY, Persona + HAS_PERSONA. */
  function CatalogStmts(c: Coords): (ss: seq<Stmt>)
    ensures |ss| == 7
    ensures forall i :: 0 <= i < |ss| ==> ss[i].WritesCatalog()
  {
    [ MergeProgram(c.program, c.programSeq),
      MergeModule(c.moduleId, c.moduleId),
      MergeHasModule(c.program, c.moduleId),
      MergeDay(c.dayId, c.dayId),
      MergeHasDay(DayOf(c), c.moduleId),
      MergePersona(c.persona, c.personaSeq),
      MergeHasPersona(DayOf(c), PersonaOf(c)) ]
  }

  /** The root anchor and its ROOTS edge from the persona. */
  function RootStmts(c: Coords, root: Id, now: int): (ss: seq<Stmt>)
    ensures |ss| == 2
    ensures forall i :: 0 <= i < |ss| ==> !ss[i].WritesCatalog()
  {
    [MergeRoot(root, now), MergeRoots(PersonaOf(c), root)]
  }

  /** The parent of script turn i: the root for the first turn, the previous turn after. */
  function ParentOf(root: Id, first: Id, i: nat): Id {
    if i == 0 then root else first + i - 1
  }

  /** The two statements for script turn i: its node, then its CHILD_OF edge. */
  function TurnStmts(turns: seq<TurnRecord>, root: Id, first: Id, now: int, i: nat): (ss: seq<Stmt>)
    requires i < |turns|
    ensures |ss| == 2
    ensures forall j :: 0 <= j < |ss| ==> !ss[j].WritesCatalog()
  {
    var parent := ParentOf(root, first, i);
    [MergeTurn(first + i, turns[i].role, turns[i].text, parent, now), MergeChildOf(parent, first + i)]
  }

  /** The statements for the first n script turns. */
  function ChainStmts(turns: seq<TurnRecord>, root: Id, first: Id, now: int, n: nat): (ss: seq<Stmt>)
    requires n <= |turns|
    ensures |ss| == 2 * n
    ensures forall j :: 0 <= j < |ss| ==> !ss[j].WritesCatalog()
  {
    if n == 0 then []
    else ChainStmts(turns, root, first, now, n - 1) + TurnStmts(turns, root, first, now, n - 1)
  }

  /** The whole plan of an import whose job id is `job`: the root takes the next
      id and the script turns the ids after it. */
  function Plan(c: Coords, turns: seq<TurnRecord>, job: Id, now: int): (ss: seq<Stmt>)
    ensures |ss| == 9 + 2 * |turns|
    ensures ss[..7] == CatalogStmts(c)
    ensures forall i :: 7 <= i < |ss| ==> !ss[i].WritesCatalog()
  {
    CatalogStmts(c) + RootStmts(c, job + 1, now) + ChainStmts(turns, job + 1, job + 2, now, |turns|)
  }

  // ---------------------------------------------------------------------------
  // Reference definitions of the effect of each phase

  /** The catalog after the upserts, stated as a final state: the four nodes are
      present, the program carries the given key, and HAS_MODULE / HAS_DAY edges
      reach every Module node with the module id. */
  function UpsertedCatalog(cat: Catalog, c: Coords): Catalog {
    var modules := cat.modules + {ModuleOf(c)};
    var matching := set m | m in modules && m.id == c.moduleId;
    Catalog(
      cat.programs[c.program := c.programSeq],
      modules,
      cat.days + {DayOf(c)},
      cat.personas + {PersonaOf(c)},
      cat.hasModule + set m | m in matching :: (c.program, m),
      cat.hasDay + set m | m in matching :: (m, DayOf(c)),
      cat.hasPersona + {(DayOf(c), PersonaOf(c))})
  }

  function RootNode(root: Id, now: int): Turn {
    Turn(root, RootRole, None, None, None, now)
  }

  /** Script turn i as the importer's loop writes it: the record's role and text,
      accepted, and the id of its parent. */
  function ChainNode(turns: seq<TurnRecord>, root: Id, first: Id, now: int, i: nat): Turn
    requires i < |turns|
  {
    Turn(first + i, turns[i].role, Some(turns[i].text), Some(true), Some(ParentOf(root, first, i)), now)
  }

  function ChainNodes(turns: seq<TurnRecord>, root: Id, first: Id, now: int, n: nat): (ts: set<Turn>)
    requires n <= |turns|
  {
    if n == 0 then {} else ChainNodes(turns, root, first, now, n - 1) + {ChainNode(turns, root, first, now, n - 1)}
  }

  function ChainEdges(root: Id, first: Id, n: nat): set<(Id, Id)> {
    if n == 0 then {} else ChainEdges(root, first, n - 1) + {(first + n - 1, ParentOf(root, first, n - 1))}
  }

  // ---------------------------------------------------------------------------
  // Effect of each phase

  lemma CatalogPhase(g: Graph, c: Coords)
    ensures Run(g, CatalogStmts(c)) == Graph(UpsertedCatalog(g.catalog, c), g.chains)
  {
    var ss := CatalogStmts(c);
    var k1 := ApplyCatalog(g.catalog, ss[0]);
    var k2 := ApplyCatalog(k1, ss[1]);
    var k3 := ApplyCatalog(k2, ss[2]);
    var k4 := ApplyCatalog(k3, ss[3]);
    var k5 := ApplyCatalog(k4, ss[4]);
    var k6 := ApplyCatalog(k5, ss[5]);
    var k7 := ApplyCatalog(k6, ss[6]);
    assert Run(g, ss) == Graph(k7, g.chains) by {
      RunSteps(g, ss);
      CatalogApply(g, ss[0]);
      CatalogApply(Graph(k1, g.chains), ss[1]);
      CatalogApply(Graph(k2, g.chains), ss[2]);
      CatalogApply(Graph(k3, g.chains), ss[3]);
      CatalogApply(Graph(k4, g.chains), ss[4]);
      CatalogApply(Graph(k5, g.chains), ss[5]);
      CatalogApply(Graph(k6, g.chains), ss[6]);
    }
    UpsertSteps(g.catalog, c);
  }

  /** A catalog statement changes the catalog only. */
  lemma CatalogApply(g: Graph, s: Stmt)
    requires s.WritesCatalog()
    ensures Apply(g, s) == Graph(ApplyCatalog(g.catalog, s), g.chains)
  {
  }

  /** The seven catalog statements, applied in order, leave UpsertedCatalog. */
  lemma UpsertSteps(cat: Catalog, c: Coords)
    ensures var ss := CatalogStmts(c);
      ApplyCatalog(ApplyCatalog(ApplyCatalog(ApplyCatalog(ApplyCatalog(ApplyCatalog(ApplyCatalog(
        cat, ss[0]), ss[1]), ss[2]), ss[3]), ss[4]), ss[5]), ss[6]) == UpsertedCatalog(cat, c)
  {
    var ss := CatalogStmts(c);
    var k2 := ApplyCatalog(ApplyCatalog(cat, ss[0]), ss[1]);
    var k3 := ApplyCatalog(k2, ss[2]);
    var k4 := ApplyCatalog(k3, ss[3]);
    var k5 := ApplyCatalog(k4, ss[4]);
    var u := UpsertedCatalog(cat, c);
    assert k3.hasModule == u.hasModule by {
      assert k2.modules == u.modules;
      assert c.program in k2.programs;
    }
    assert k5.hasDay == u.hasDay by {
      assert k4.modules == u.modules;
      assert DayOf(c) in k4.days;
    }
  }

  /** Unrolls Run over a seven-statement sequence. */
  lemma RunSteps(g: Graph, ss: seq<Stmt>)
    requires |ss| == 7
    ensures Run(g, ss) == Apply(Apply(Apply(Apply(Apply(Apply(Apply(g, ss[0]), ss[1]), ss[2]), ss[3]), ss[4]), ss[5]), ss[6])
  {
    var g1 := Apply(g, ss[0]);
    var g2 := Apply(g1, ss[1]);
    var g3 := Apply(g2, ss[2]);
    var g4 := Apply(g3, ss[3]);
    var g5 := Apply(g4, ss[4]);
    var g6 := Apply(g5, ss[5]);
    assert ss[1..][1..] == ss[2..] && ss[2..][1..] == ss[3..] && ss[3..][1..] == ss[4..];
    assert ss[4..][1..] == ss[5..] && ss[5..][1..] == ss[6..] && ss[6..][1..] == [];
    calc {
      Run(g, ss);
      Run(g1, ss[1..]);
      Run(g2, ss[2..]);
      Run(g3, ss[3..]);
      Run(g4, ss[4..]);
      Run(g5, ss[5..]);
      Run(g6, ss[6..]);
      Run(Apply(g6, ss[6]), []);
    }
  }

  /** MERGE makes the catalog upserts idempotent: upserting the same coordinates
      again changes nothing, neither nodes nor edges nor ordering keys. */
  lemma UpsertIdempotent(cat: Catalog, c: Coords)
    ensures UpsertedCatalog(UpsertedCatalog(cat, c), c) == UpsertedCatalog(cat, c)
  {
    var u := UpsertedCatalog(cat, c);
    var v := UpsertedCatalog(u, c);
    assert v.programs == u.programs;
    assert v.modules == u.modules;
    assert v.hasModule == u.hasModule;
    assert v.hasDay == u.hasDay;
  }

  lemma RootPhase(g: Graph, c: Coords, root: Id, now: int)
    requires PersonaOf(c) in g.catalog.personas
    ensures Run(g, RootStmts(c, root, now)) == Graph(g.catalog,
      Chains(g.chains.turns + {RootNode(root, now)}, g.chains.roots + {(PersonaOf(c), root)}, g.chains.childOf))
  {
    var ss := RootStmts(c, root, now);
    var g1 := Apply(g, ss[0]);
    assert RootNode(root, now) in g1.chains.turns;
    assert HasRoot(g1.chains, root);
    RunTwo(g, ss[0], ss[1]);
  }

  /** The first n script turns add exactly ChainNodes and ChainEdges, given that
      the root anchor is already there. */
  lemma {:induction false} ChainPhase(g: Graph, turns: seq<TurnRecord>, root: Id, first: Id, now: int, n: nat)
    requires n <= |turns|
    requires HasTurn(g.chains, root)
    ensures Run(g, ChainStmts(turns, root, first, now, n)) == ChainAdded(g, turns, root, first, now, n)
  {
    if n > 0 {
      ChainPhase(g, turns, root, first, now, n - 1);
      ChainPhaseStep(g, turns, root, first, now, n);
    }
  }

  /** The store g with the first n chain nodes and edges added. */
  function ChainAdded(g: Graph, turns: seq<TurnRecord>, root: Id, first: Id, now: int, n: nat): Graph
    requires n <= |turns|
  {
    Graph(g.catalog, Chains(g.chains.turns + ChainNodes(turns, root, first, now, n), g.chains.roots,
                            g.chains.childOf + ChainEdges(root, first, n)))
  }

  lemma ChainPhaseStep(g: Graph, turns: seq<TurnRecord>, root: Id, first: Id, now: int, n: nat)
    requires 0 < n <= |turns|
    requires HasTurn(g.chains, root)
    requires Run(g, ChainStmts(turns, root, first, now, n - 1)) == ChainAdded(g, turns, root, first, now, n - 1)
    ensures Run(g, ChainStmts(turns, root, first, now, n)) == ChainAdded(g, turns, root, first, now, n)
  {
    var h := ChainAdded(g, turns, root, first, now, n - 1);
    var step := TurnStmts(turns, root, first, now, n - 1);
    assert Run(g, ChainStmts(turns, root, first, now, n)) == Run(h, step) by {
      RunAppend(g, ChainStmts(turns, root, first, now, n - 1), step);
    }
    TurnAdds(g, turns, root, first, now, n);
  }

  /** The statements of turn n - 1 take the store from n - 1 chain turns to n. */
  lemma TurnAdds(g: Graph, turns: seq<TurnRecord>, root: Id, first: Id, now: int, n: nat)
    requires 0 < n <= |turns|
    requires HasTurn(g.chains, root)
    ensures Run(ChainAdded(g, turns, root, first, now, n - 1), TurnStmts(turns, root, first, now, n - 1))
      == ChainAdded(g, turns, root, first, now, n)
  {
    var i := n - 1;
    var h := ChainAdded(g, turns, root, first, now, i);
    var step := TurnStmts(turns, root, first, now, i);
    RunTwo(h, step[0], step[1]);
    ParentStored(g, turns, root, first, now, i);
    TurnStep(h, turns, root, first, now, i);
    ChainAddedStep(g, turns, root, first, now, n);
  }

  /** The parent of turn i is among the nodes the first i turns left. */
  lemma ParentStored(g: Graph, turns: seq<TurnRecord>, root: Id, first: Id, now: int, i: nat)
    requires i < |turns|
    requires HasTurn(g.chains, root)
    ensures HasTurn(ChainAdded(g, turns, root, first, now, i).chains, ParentOf(root, first, i))
  {
    if i > 0 {
      ChainNodesHas(turns, root, first, now, i, i - 1);
      assert ChainNode(turns, root, first, now, i - 1) in ChainAdded(g, turns, root, first, now, i).chains.turns;
    }
  }

  /** Adding n chain turns is adding n - 1 and then turn n - 1 with its edge. */
  lemma ChainAddedStep(g: Graph, turns: seq<TurnRecord>, root: Id, first: Id, now: int, n: nat)
    requires 0 < n <= |turns|
    ensures var h := ChainAdded(g, turns, root, first, now, n - 1);
      ChainAdded(g, turns, root, first, now, n) ==
      Graph(h.catalog, Chains(h.chains.turns + {ChainNode(turns, root, first, now, n - 1)}, h.chains.roots,
                              h.chains.childOf + {(first + (n - 1), ParentOf(root, first, n - 1))}))
  {
    var nodes, node := ChainNodes(turns, root, first, now, n - 1), ChainNode(turns, root, first, now, n - 1);
    var edges, edge := ChainEdges(root, first, n - 1), (first + (n - 1), ParentOf(root, first, n - 1));
    assert ChainEdges(root, first, n) == edges + {edge};
    assert g.chains.turns + nodes + {node} == g.chains.turns + (nodes + {node});
    assert g.chains.childOf + edges + {edge} == g.chains.childOf + (edges + {edge});
  }

  /** The statements of turn i add its node and, its parent being stored, its
      CHILD_OF edge. */
  lemma TurnStep(h: Graph, turns: seq<TurnRecord>, root: Id, first: Id, now: int, i: nat)
    requires i < |turns|
    requires HasTurn(h.chains, ParentOf(root, first, i))
    ensures var parent := ParentOf(root, first, i);
      Apply(Apply(h, MergeTurn(first + i, turns[i].role, turns[i].text, parent, now)), MergeChildOf(parent, first + i))
      == Graph(h.catalog, Chains(h.chains.turns + {ChainNode(turns, root, first, now, i)}, h.chains.roots,
                                 h.chains.childOf + {(first + i, parent)}))
  {
    var parent := ParentOf(root, first, i);
    var h1 := Apply(h, MergeTurn(first + i, turns[i].role, turns[i].text, parent, now));
    assert ChainNode(turns, root, first, now, i) in h1.chains.turns;
    assert HasTurn(h1.chains, first + i);
    assert HasTurn(h1.chains, parent);
  }

  lemma {:induction false} ChainNodesHas(turns: seq<TurnRecord>, root: Id, first: Id, now: int, n: nat, i: nat)
    requires i < n <= |turns|
    ensures ChainNode(turns, root, first, now, i) in ChainNodes(turns, root, first, now, n)
  {
    if i < n - 1 {
      ChainNodesHas(turns, root, first, now, n - 1, i);
    }
  }

  /** The chain nodes carry the ids first .. first + n - 1, one node per id. */
  lemma {:induction false} ChainNodesIds(turns: seq<TurnRecord>, root: Id, first: Id, now: int, n: nat)
    requires n <= |turns|
    ensures forall t :: t in ChainNodes(turns, root, first, now, n) ==>
      first <= t.id < first + n && t == ChainNode(turns, root, first, now, t.id - first)
    ensures |ChainNodes(turns, root, first, now, n)| == n
  {
    ChainNodesShape(turns, root, first, now, n);
    ChainNodesCount(turns, root, first, now, n);
  }

  lemma {:induction false} ChainNodesShape(turns: seq<TurnRecord>, root: Id, first: Id, now: int, n: nat)
    requires n <= |turns|
    ensures forall t :: t in ChainNodes(turns, root, first, now, n) ==>
      first <= t.id < first + n && t == ChainNode(turns, root, first, now, t.id - first)
  {
    if n > 0 {
      ChainNodesShape(turns, root, first, now, n - 1);
      var prev, node := ChainNodes(turns, root, first, now, n - 1), ChainNode(turns, root, first, now, n - 1);
      var all := ChainNodes(turns, root, first, now, n);
      assert all == prev + {node};
      forall t | t in all
        ensures first <= t.id < first + n && t == ChainNode(turns, root, first, now, t.id - first)
      {
        if t != node {
          assert t in prev;
        }
      }
    }
  }

  lemma {:induction false} ChainNodesCount(turns: seq<TurnRecord>, root: Id, first: Id, now: int, n: nat)
    requires n <= |turns|
    ensures |ChainNodes(turns, root, first, now, n)| == n
  {
    if n > 0 {
      ChainNodesCount(turns, root, first, now, n - 1);
      var prev, node := ChainNodes(turns, root, first, now, n - 1), ChainNode(turns, root, first, now, n - 1);
      assert node !in prev by {
        ChainNodesShape(turns, root, first, now, n - 1);
        assert node.id == first + n - 1;
      }
      assert ChainNodes(turns, root, first, now, n) == prev + {node};
    }
  }

  /** The CHILD_OF edges of a chain: exactly one per chain turn, leading from turn
      i to turn i - 1 and from the first turn to the root. */
  lemma {:induction false} ChainEdgesShape(root: Id, first: Id, n: nat)
    ensures forall x, p :: (x, p) in ChainEdges(root, first, n) <==>
      first <= x < first + n && p == ParentOf(root, first, x - first)
    ensures |ChainEdges(root, first, n)| == n
  {
    if n > 0 {
      ChainEdgesShape(root, first, n - 1);
      assert (first + n - 1, ParentOf(root, first, n - 1)) !in ChainEdges(root, first, n - 1);
    }
  }

  /** The statements of the first j turns are a prefix of those of the first n. */
  lemma {:induction false} ChainStmtsPrefix(turns: seq<TurnRecord>, root: Id, first: Id, now: int, j: nat, n: nat)
    requires j <= n <= |turns|
    ensures ChainStmts(turns, root, first, now, n)[..2 * j] == ChainStmts(turns, root, first, now, j)
  {
    if j < n {
      ChainStmtsPrefix(turns, root, first, now, j, n - 1);
      var prev := ChainStmts(turns, root, first, now, n - 1);
      assert ChainStmts(turns, root, first, now, n)[..2 * j] == prev[..2 * j];
    }
  }

  // ---------------------------------------------------------------------------
  // Catalog keys

  /** Every Module and Day node carries its id as ordering key and every Persona
      node the ordering key of its name: the only nodes this importer creates.
      Edges end at stored nodes, as edges are only merged between matched nodes. */
  predicate Keyed(cat: Catalog) {
    && (forall m :: m in cat.modules ==> m.id == m.seqNo)
    && (forall d :: d in cat.days ==> d.id == d.seqNo)
    && (forall p :: p in cat.personas ==> p.seqNo == Digits.OrderingKey(p.id))
    && (forall e :: e in cat.hasModule ==> e.1 in cat.modules)
    && (forall e :: e in cat.hasDay ==> e.0 in cat.modules && e.1 in cat.days)
    && (forall e :: e in cat.hasPersona ==> e.0 in cat.days && e.1 in cat.personas)
  }

  /** In a keyed catalog the upsert leaves exactly one node per coordinate (one
      Program with the program's key, one Module, one Day, one Persona) and exactly
      one HAS_MODULE, HAS_DAY and HAS_PERSONA edge between them. */
  lemma OneNodePerCoordinate(cat: Catalog, c: Coords)
    requires Keyed(cat) && Canonical(c)
    ensures var u := UpsertedCatalog(cat, c);
      && Keyed(u)
      && c.program in u.programs && u.programs[c.program] == c.programSeq
      && ModuleOf(c) in u.modules && (forall m :: m in u.modules && m.id == c.moduleId ==> m == ModuleOf(c))
      && DayOf(c) in u.days && (forall d :: d in u.days && d.id == c.dayId ==> d == DayOf(c))
      && PersonaOf(c) in u.personas && (forall p :: p in u.personas && p.id == c.persona ==> p == PersonaOf(c))
    ensures var u := UpsertedCatalog(cat, c);
      && (c.program, ModuleOf(c)) in u.hasModule
      && (forall m :: (c.program, m) in u.hasModule && m.id == c.moduleId ==> m == ModuleOf(c))
      && (ModuleOf(c), DayOf(c)) in u.hasDay
      && (forall m, d :: (m, d) in u.hasDay && m.id == c.moduleId && d.id == c.dayId ==> (m, d) == (ModuleOf(c), DayOf(c)))
      && (DayOf(c), PersonaOf(c)) in u.hasPersona
      && (forall d, p :: (d, p) in u.hasPersona && d.id == c.dayId && p.id == c.persona ==> (d, p) == (DayOf(c), PersonaOf(c)))
  {
  }

  /** Module nodes are merged on id and key together, so a Module node with the
      same id but another key (one this importer never writes) is not reused: in a
      store without a uniqueness constraint on the Module id, the upsert then
      leaves two Module nodes with that id. */
  lemma MismatchedKeyDuplicatesModule(cat: Catalog, c: Coords, other: int)
    requires ModuleNode(c.moduleId, other) in cat.modules && other != c.moduleId
    ensures var u := UpsertedCatalog(cat, c);
      ModuleNode(c.moduleId, other) in u.modules && ModuleOf(c) in u.modules && ModuleNode(c.moduleId, other) != ModuleOf(c)
  {
  }

  /** Day nodes are shared by day number across modules: two coordinates with the
      same day under different modules upsert one Day node with a HAS_DAY edge
      from each module. */
  lemma DayNodeShared(cat: Catalog, c1: Coords, c2: Coords)
    requires c1.dayId == c2.dayId
    ensures var u := UpsertedCatalog(UpsertedCatalog(cat, c1), c2);
      && DayOf(c1) == DayOf(c2)
      && (ModuleOf(c1), DayOf(c1)) in u.hasDay
      && (ModuleOf(c2), DayOf(c1)) in u.hasDay
  {
  }

  /** The key discipline of one statement: Module and Day nodes are written with
      their id as key, Persona nodes with the ordering key of their name. */
  predicate KeyedStmt(s: Stmt) {
    match s
    case MergeModule(id, key) => id == key
    case MergeDay(id, key) => id == key
    case MergePersona(id, key) => key == Digits.OrderingKey(id)
    case _ => true
  }

  /** Statements that keep the key discipline keep a keyed catalog keyed. */
  lemma {:induction false} RunKeepsKeyed(g: Graph, ss: seq<Stmt>)
    requires Keyed(g.catalog)
    requires forall i :: 0 <= i < |ss| ==> KeyedStmt(ss[i])
    ensures Keyed(Run(g, ss).catalog)
    decreases |ss|
  {
    if |ss| > 0 {
      var g1 := Apply(g, ss[0]);
      assert Keyed(g1.catalog);
      assert forall i :: 0 <= i < |ss[1..]| ==> KeyedStmt(ss[1..][i]) by {
        forall i | 0 <= i < |ss[1..]| ensures KeyedStmt(ss[1..][i]) {
          assert ss[1..][i] == ss[i + 1];
        }
      }
      RunKeepsKeyed(g1, ss[1..]);
    }
  }

  /** Every statement of the plan for canonical coordinates keeps the key discipline. */
  lemma PlanKeyed(c: Coords, turns: seq<TurnRecord>, job: Id, now: int)
    requires Canonical(c)
    ensures forall i :: 0 <= i < |Plan(c, turns, job, now)| ==> KeyedStmt(Plan(c, turns, job, now)[i])
  {
    var plan := Plan(c, turns, job, now);
    forall i | 0 <= i < |plan| ensures KeyedStmt(plan[i]) {
      if i < 7 {
        assert plan[i] == CatalogStmts(c)[i];
      }
    }
  }

  // ---------------------------------------------------------------------------
  // The turn loop with its parent cursor

  /** Writes the chain the way the importer's loop does: for each record, merge a
      turn under the current parent, link it with CHILD_OF, and move the cursor to
      it. Returns the store and the final cursor, the last turn's id (the root
      when there are no records). */
  method WriteChain(g: Graph, turns: seq<TurnRecord>, root: Id, first: Id, now: int) returns (g': Graph, last: Id)
    ensures g' == Run(g, ChainStmts(turns, root, first, now, |turns|))
    ensures HasTurn(g.chains, root) ==> g' == ChainAdded(g, turns, root, first, now, |turns|)
    ensures last == if |turns| == 0 then root else first + |turns| - 1
  {
    g' := g;
    var parent := root;
    var i := 0;
    while i < |turns|
      invariant i <= |turns|
      invariant parent == ParentOf(root, first, i)
      invariant g' == Run(g, ChainStmts(turns, root, first, now, i))
    {
      var id := first + i;
      var step := [MergeTurn(id, turns[i].role, turns[i].text, parent, now), MergeChildOf(parent, id)];
      assert step == TurnStmts(turns, root, first, now, i);
      RunAppend(g, ChainStmts(turns, root, first, now, i), step);
      g' := Run(g', step);
      parent := id;
      i := i + 1;
    }
    last := parent;
    assert HasTurn(g.chains, root) ==> g' == ChainAdded(g, turns, root, first, now, |turns|) by {
      if HasTurn(g.chains, root) {
        ChainPhase(g, turns, root, first, now, |turns|);
      }
    }
  }
}

=== FILE: importer.dfy ===
/** The import of one script: parse the path, validate every record, mint the job
    id, then run the plan against the store. Ids come from a counter that stands
    for the uuid supply: the job takes the next id, the root anchor the one after,
    and the script turns the ones after that. */
module Importer {
  import opened Wrappers
  import opened CatalogPath
  import opened Script
  import opened Store
  import opened ImportPlan

  /** The store together with the id supply. */
  datatype World = World(graph: Graph, nextId: Id)

  datatype ImportError =
    | PathFormat(pathError: PathFormatError)
    | TurnSchema(index: nat)
    | GraphStore(step: nat)

  /** The job id on success, the error otherwise, and the resulting world. */
  datatype Outcome = Outcome(jobId: Result<Id, ImportError>, world: World)

  /** No id in the store has been minted yet by the supply. */
  predicate Fresh(w: World) {
    IdsBelow(w.graph, w.nextId)
  }

  /** Imports one script. `now` is the store clock every statement reads;
      `rejectAt` is the index of the plan statement the store refuses, if any. */
  function ImportFile(w: World, path: seq<string>, script: seq<Record>, now: int, rejectAt: Option<nat>): (o: Outcome)
    ensures ParsePath(path).Failure? ==> o == Outcome(Failure(PathFormat(ParsePath(path).error)), w)
    ensures ParsePath(path).Success? && ValidateScript(script).Failure? ==>
      o == Outcome(Failure(TurnSchema(ValidateScript(script).error)), w)
    ensures o.jobId.Success? <==>
      ParsePath(path).Success? && ValidateScript(script).Success? && (rejectAt.None? || rejectAt.value >= 9 + 2 * |script|)
    ensures o.jobId.Success? ==> o.jobId.value == w.nextId && o.world.nextId == w.nextId + 2 + |script|
    ensures w.nextId <= o.world.nextId
    ensures Grows(w.graph, o.world.graph)
  {
    match ParsePath(path)
    case Failure(e) => Outcome(Failure(PathFormat(e)), w)
    case Success(c) =>
      match ValidateScript(script)
      case Failure(i) => Outcome(Failure(TurnSchema(i)), w)
      case Success(turns) =>
        var job := w.nextId;
        var plan := Plan(c, turns, job, now);
        var next := job + 2 + |turns|;
        if rejectAt.Some? && rejectAt.value < |plan| then
          Outcome(Failure(GraphStore(rejectAt.value)), World(Run(w.graph, plan[..rejectAt.value]), next))
        else
          Outcome(Success(job), World(Run(w.graph, plan), next))
  }

  predicate Importable(path: seq<string>, script: seq<Record>) {
    ParsePath(path).Success? && ValidateScript(script).Success?
  }

  // ---------------------------------------------------------------------------
  // Effect of a successful import

  /** A successful import upserts the catalog, adds one root anchor with its ROOTS
      edge, and adds the chain nodes and edges; nothing else changes. */
  lemma {:induction false} ImportEffect(w: World, path: seq<string>, script: seq<Record>, now: int)
    requires Importable(path, script)
    ensures var c, turns := ParsePath(path).value, ValidateScript(script).value;
      var o := ImportFile(w, path, script, now, None);
      && o.jobId == Success(w.nextId)
      && o.world == World(PlannedGraph(w.graph, c, turns, w.nextId, now), w.nextId + 2 + |turns|)
  {
    var c, turns := ParsePath(path).value, ValidateScript(script).value;
    PlanEffect(w.graph, c, turns, w.nextId, now);
  }

  /** The store after the whole plan, as a final state. */
  function PlannedGraph(g: Graph, c: Coords, turns: seq<TurnRecord>, job: Id, now: int): Graph {
    var root := job + 1;
    Graph(UpsertedCatalog(g.catalog, c),
      Chains(g.chains.turns + {RootNode(root, now)} + ChainNodes(turns, root, root + 1, now, |turns|),
             g.chains.roots + {(PersonaOf(c), root)},
             g.chains.childOf + ChainEdges(root, root + 1, |turns|)))
  }

  lemma {:induction false} PlanEffect(g: Graph, c: Coords, turns: seq<TurnRecord>, job: Id, now: int)
    ensures Run(g, Plan(c, turns, job, now)) == PlannedGraph(g, c, turns, job, now)
  {
    var plan := Plan(c, turns, job, now);
    PrefixEffect(g, c, turns, job, now, |turns|);
    assert plan[..|plan|] == plan;
  }

  /** The store once the catalog, the root pair and the first j turn pairs of the
      plan have run. */
  lemma {:induction false} PrefixEffect(g: Graph, c: Coords, turns: seq<TurnRecord>, job: Id, now: int, j: nat)
    requires j <= |turns|
    ensures var root := job + 1;
      Run(g, Plan(c, turns, job, now)[..9 + 2 * j]) == Graph(UpsertedCatalog(g.catalog, c),
        Chains(g.chains.turns + {RootNode(root, now)} + ChainNodes(turns, root, root + 1, now, j),
               g.chains.roots + {(PersonaOf(c), root)},
               g.chains.childOf + ChainEdges(root, root + 1, j)))
  {
    var root := job + 1;
    var cs, rs := CatalogStmts(c), RootStmts(c, root, now);
    var ts := ChainStmts(turns, root, root + 1, now, j);
    assert Plan(c, turns, job, now)[..9 + 2 * j] == cs + rs + ts by {
      ChainStmtsPrefix(turns, root, root + 1, now, j, |turns|);
    }
    RunAppend(g, cs + rs, ts);
    RunAppend(g, cs, rs);
    CatalogPhase(g, c);
    var g1 := Run(g, cs);
    RootPhase(g1, c, root, now);
    var g2 := Run(g1, rs);
    assert RootNode(root, now) in g2.chains.turns;
    ChainPhase(g2, turns, root, root + 1, now, j);
  }

  /** The plan creates only ids below the supply's next value. */
  lemma {:induction false} PlanCreatesBelow(c: Coords, turns: seq<TurnRecord>, job: Id, now: int)
    ensures forall i :: 0 <= i < |Plan(c, turns, job, now)| ==>
      CreatesBelow(Plan(c, turns, job, now)[i], job + 2 + |turns|)
  {
    ChainCreatesBelow(turns, job + 1, job + 2, now, |turns|);
  }

  lemma {:induction false} ChainCreatesBelow(turns: seq<TurnRecord>, root: Id, first: Id, now: int, n: nat)
    requires n <= |turns|
    ensures forall i :: 0 <= i < 2 * n ==> CreatesBelow(ChainStmts(turns, root, first, now, n)[i], first + n)
  {
    if n > 0 {
      ChainCreatesBelow(turns, root, first, now, n - 1);
    }
  }

  /** Whatever happens, ids stay fresh: the supply is always ahead of the store. */
  lemma {:induction false} ImportKeepsFresh(w: World, path: seq<string>, script: seq<Record>, now: int, rejectAt: Option<nat>)
    requires Fresh(w)
    ensures Fresh(ImportFile(w, path, script, now, rejectAt).world)
  {
    if Importable(path, script) {
      var c, turns := ParsePath(path).value, ValidateScript(script).value;
      var plan := Plan(c, turns, w.nextId, now);
      var next := w.nextId + 2 + |turns|;
      PlanCreatesBelow(c, turns, w.nextId, now);
      assert IdsBelow(w.graph, next);
      RunKeepsIdsBelow(w.graph, plan, next);
      if rejectAt.Some? && rejectAt.value < |plan| {
        RunKeepsIdsBelow(w.graph, plan[..rejectAt.value], next);
      }
    }
  }

  // ---------------------------------------------------------------------------
  // The chain of one import

  /** The plan adds exactly one root anchor and one turn per record, all of them new. */
  lemma {:induction false} PlannedTurnCount(g: Graph, c: Coords, turns: seq<TurnRecord>, job: Id, now: int)
    requires IdsBelow(g, job)
    ensures |PlannedGraph(g, c, turns, job, now).chains.turns| == |g.chains.turns| + 1 + |turns|
    ensures RootNode(job + 1, now) !in g.chains.turns
  {
    var root := job + 1;
    var chain := ChainNodes(turns, root, root + 1, now, |turns|);
    ChainNodesIds(turns, root, root + 1, now, |turns|);
    var withRoot := g.chains.turns + {RootNode(root, now)};
    assert |withRoot| == |g.chains.turns| + 1;
    assert withRoot !! chain;
    assert PlannedGraph(g, c, turns, job, now).chains.turns == withRoot + chain;
  }

  /** Turn i of the plan carries record i's role and text, is accepted, and names its
      predecessor (the root for the first) as parent. */
  lemma {:induction false} PlannedTurnsInOrder(g: Graph, c: Coords, turns: seq<TurnRecord>, job: Id, now: int)
    ensures var root := job + 1;
      forall i :: 0 <= i < |turns| ==>
        Turn(root + 1 + i, turns[i].role, Some(turns[i].text), Some(true),
             Some(if i == 0 then root else root + i), now) in PlannedGraph(g, c, turns, job, now).chains.turns
  {
    var root := job + 1;
    var chain := ChainNodes(turns, root, root + 1, now, |turns|);
    assert PlannedGraph(g, c, turns, job, now).chains.turns >= chain;
    forall i | 0 <= i < |turns|
      ensures Turn(root + 1 + i, turns[i].role, Some(turns[i].text), Some(true),
                   Some(if i == 0 then root else root + i), now) in chain
    {
      ChainNodesHas(turns, root, root + 1, now, |turns|, i);
    }
  }

  /** The new CHILD_OF edges form one linear path from the last turn to the root:
      each new turn has exactly one new edge, to the turn minted just before it. */
  lemma {:induction false} PlannedEdgesLinear(g: Graph, c: Coords, turns: seq<TurnRecord>, job: Id, now: int)
    requires IdsBelow(g, job)
    ensures var root := job + 1;
      var edges := PlannedGraph(g, c, turns, job, now).chains.childOf;
      forall x, p :: (x, p) in edges && (x, p) !in g.chains.childOf <==> root < x <= root + |turns| && p == x - 1
  {
    var root := job + 1;
    ChainEdgesShape(root, root + 1, |turns|);
  }

  /** No turn of the store, old or new, carries the job id. */
  lemma {:induction false} PlannedJobIdUnused(g: Graph, c: Coords, turns: seq<TurnRecord>, job: Id, now: int)
    requires IdsBelow(g, job)
    ensures forall t :: t in PlannedGraph(g, c, turns, job, now).chains.turns ==> t.id != job
  {
    ChainNodesIds(turns, job + 1, job + 2, now, |turns|);
  }

  /** What one import does to the turns: g' has exactly one new root anchor and
      one new turn per record, turn i carrying record i's role and text, accepted,
      with its predecessor (the root for the first) as parent; the new CHILD_OF
      edges form one linear path, each new turn having exactly one new edge, to the
      turn minted just before it; and no turn carries the job id. */
  ghost predicate AddsOneChain(g: Graph, g': Graph, turns: seq<TurnRecord>, job: Id, now: int) {
    var root := job + 1;
    && |g'.chains.turns| == |g.chains.turns| + 1 + |turns|
    && RootNode(root, now) in g'.chains.turns && RootNode(root, now) !in g.chains.turns
    && (forall i :: 0 <= i < |turns| ==>
          Turn(root + 1 + i, turns[i].role, Some(turns[i].text), Some(true),
               Some(if i == 0 then root else root + i), now) in g'.chains.turns)
    && (forall x, p :: (x, p) in g'.chains.childOf && (x, p) !in g.chains.childOf <==>
          root < x <= root + |turns| && p == x - 1)
    && (forall t :: t in g'.chains.turns ==> t.id != job)
  }

  lemma {:induction false} PlannedAddsOneChain(g: Graph, c: Coords, turns: seq<TurnRecord>, job: Id, now: int)
    requires IdsBelow(g, job)
    ensures AddsOneChain(g, PlannedGraph(g, c, turns, job, now), turns, job, now)
  {
    PlannedTurnCount(g, c, turns, job, now);
    PlannedTurnsInOrder(g, c, turns, job, now);
    PlannedEdgesLinear(g, c, turns, job, now);
    PlannedJobIdUnused(g, c, turns, job, now);
  }

  /** One import adds exactly one fresh root anchor and one fresh turn per record,
      chained linearly in record order, and returns a job id no turn carries. */
  lemma {:induction false} ImportAddsOneChain(w: World, path: seq<string>, script: seq<Record>, now: int)
    requires Fresh(w) && Importable(path, script)
    ensures ImportFile(w, path, script, now, None).jobId == Success(w.nextId)
    ensures |ValidateScript(script).value| == |script|
    ensures AddsOneChain(w.graph, ImportFile(w, path, script, now, None).world.graph,
                         ValidateScript(script).value, w.nextId, now)
  {
    var c, turns := ParsePath(path).value, ValidateScript(script).value;
    ImportEffect(w, path, script, now);
    PlannedAddsOneChain(w.graph, c, turns, w.nextId, now);
  }

  /** Two imports in sequence never return the same job id, whatever they import. */
  lemma {:induction false} SequentialJobIdsDiffer(w: World, path1: seq<string>, script1: seq<Record>, now1: int,
                               path2: seq<string>, script2: seq<Record>, now2: int,
                               reject1: Option<nat>, reject2: Option<nat>)
    requires ImportFile(w, path1, script1, now1, reject1).jobId.Success?
    requires ImportFile(ImportFile(w, path1, script1, now1, reject1).world, path2, script2, now2, reject2).jobId.Success?
    ensures ImportFile(w, path1, script1, now1, reject1).jobId.value
         != ImportFile(ImportFile(w, path1, script1, now1, reject1).world, path2, script2, now2, reject2).jobId.value
  {
  }

  // ---------------------------------------------------------------------------
  // Re-importing the same path

  /** Catalog idempotence: importing the same path again, with any script, leaves
      the catalog exactly as the first import left it. */
  lemma {:induction false} ReimportKeepsCatalog(w: World, path: seq<string>, script1: seq<Record>, script2: seq<Record>, now1: int, now2: int)
    requires Importable(path, script1) && Importable(path, script2)
    ensures var o1 := ImportFile(w, path, script1, now1, None);
      var o2 := ImportFile(o1.world, path, script2, now2, None);
      o2.world.graph.catalog == o1.world.graph.catalog
  {
    var c := ParsePath(path).value;
    var o1 := ImportFile(w, path, script1, now1, None);
    ImportEffect(w, path, script1, now1);
    ImportEffect(o1.world, path, script2, now2);
    UpsertIdempotent(w.graph.catalog, c);
  }

  /** Two imports for the same persona, seen from the store: two different roots,
      each with its own ROOTS edge from the one Persona node, and nothing else
      added to ROOTS. */
  predicate TwoRoots(g: Graph, g2: Graph, persona: PersonaNode, r1: Id, now1: int, r2: Id, now2: int) {
    && r1 != r2
    && RootNode(r1, now1) in g2.chains.turns
    && RootNode(r2, now2) in g2.chains.turns
    && g2.chains.roots == g.chains.roots + {(persona, r1), (persona, r2)}
    && (persona, r1) !in g.chains.roots && (persona, r2) !in g.chains.roots
  }

  lemma {:induction false} PlannedTwiceTwoRoots(g: Graph, g2: Graph, c: Coords, turns1: seq<TurnRecord>, turns2: seq<TurnRecord>, job1: Id, job2: Id, now1: int, now2: int)
    requires IdsBelow(g, job1) && job1 + 2 + |turns1| <= job2
    requires g2 == PlannedGraph(PlannedGraph(g, c, turns1, job1, now1), c, turns2, job2, now2)
    ensures TwoRoots(g, g2, PersonaOf(c), job1 + 1, now1, job2 + 1, now2)
  {
    var persona := PersonaOf(c);
    assert (persona, job1 + 1) !in g.chains.roots;
    assert (persona, job2 + 1) !in g.chains.roots + {(persona, job1 + 1)};
  }

  /** Two successful imports of one path in a row reach the store the two plans describe. */
  lemma {:induction false} TwoImports(w: World, path: seq<string>, script1: seq<Record>, script2: seq<Record>, now1: int, now2: int)
    requires Importable(path, script1) && Importable(path, script2)
    ensures var c := ParsePath(path).value;
      var t1, t2 := ValidateScript(script1).value, ValidateScript(script2).value;
      var o1 := ImportFile(w, path, script1, now1, None);
      var o2 := ImportFile(o1.world, path, script2, now2, None);
      && o1.world.nextId == w.nextId + 2 + |t1|
      && o2.world.graph == PlannedGraph(PlannedGraph(w.graph, c, t1, w.nextId, now1), c, t2, o1.world.nextId, now2)
  {
    var o1 := ImportFile(w, path, script1, now1, None);
    ImportEffect(w, path, script1, now1);
    ImportEffect(o1.world, path, script2, now2);
  }

  /** The root anchor is not idempotent: a second import of the same persona adds a
      second, different root and a second ROOTS edge from the same Persona node. */
  lemma {:induction false} ReimportAddsSecondRoot(w: World, path: seq<string>, script1: seq<Record>, script2: seq<Record>, now1: int, now2: int)
    returns (o1: Outcome, o2: Outcome)
    requires Fresh(w) && Importable(path, script1) && Importable(path, script2)
    ensures o1 == ImportFile(w, path, script1, now1, None)
    ensures o2 == ImportFile(o1.world, path, script2, now2, None)
    ensures TwoRoots(w.graph, o2.world.graph, PersonaOf(ParsePath(path).value), w.nextId + 1, now1, o1.world.nextId + 1, now2)
  {
    var c := ParsePath(path).value;
    var t1, t2 := ValidateScript(script1).value, ValidateScript(script2).value;
    o1 := ImportFile(w, path, script1, now1, None);
    o2 := ImportFile(o1.world, path, script2, now2, None);
    TwoImports(w, path, script1, script2, now1, now2);
    PlannedTwiceTwoRoots(w.graph, o2.world.graph, c, t1, t2, w.nextId, o1.world.nextId, now1, now2);
  }

  // ---------------------------------------------------------------------------
  // Failures

  /** A record that fails validation fails the whole import before anything is
      written: the world, the store and the id supply included, is unchanged. The
      error names the first bad record, at or before the given one, unless the
      path was already rejected. */
  lemma {:induction false} BadRecordWritesNothing(w: World, path: seq<string>, script: seq<Record>, now: int, rejectAt: Option<nat>, k: nat)
    requires k < |script| && !WellShaped(script[k])
    ensures ImportFile(w, path, script, now, rejectAt).world == w
    ensures ImportFile(w, path, script, now, rejectAt).jobId.Failure?
    ensures ParsePath(path).Success? ==>
      && ImportFile(w, path, script, now, rejectAt).jobId.error.TurnSchema?
      && ImportFile(w, path, script, now, rejectAt).jobId.error.index <= k
      && !WellShaped(script[ImportFile(w, path, script, now, rejectAt).jobId.error.index])
  {
    OneBadRecordRejectsScript(script, k);
  }

  /** A store failure during the catalog upserts leaves the chains untouched. */
  lemma {:induction false} StoreFailureInCatalog(w: World, path: seq<string>, script: seq<Record>, now: int, k: nat)
    requires Importable(path, script) && k <= 7
    ensures ImportFile(w, path, script, now, Some(k)).jobId == Failure(GraphStore(k))
    ensures ImportFile(w, path, script, now, Some(k)).world.graph.chains == w.graph.chains
  {
    var c, turns := ParsePath(path).value, ValidateScript(script).value;
    var plan := Plan(c, turns, w.nextId, now);
    assert forall i :: 0 <= i < |plan[..k]| ==> plan[..k][i].WritesCatalog() by {
      forall i | 0 <= i < |plan[..k]| ensures plan[..k][i].WritesCatalog() {
        assert plan[..k][i] == CatalogStmts(c)[i];
      }
    }
    RunCatalogOnly(w.graph, plan[..k]);
  }

  /** A store failure after the catalog upserts keeps the writes before it: the
      catalog is fully upserted, and once the root pair and the first j turn pairs
      have run, the root anchor and those j turns are stored and linked. */
  lemma {:induction false} StoreFailureKeepsPrefix(w: World, path: seq<string>, script: seq<Record>, now: int, k: nat, j: nat)
    requires Importable(path, script)
    requires 9 + 2 * j <= k < 9 + 2 * |script|
    ensures ImportFile(w, path, script, now, Some(k)).jobId == Failure(GraphStore(k))
    ensures PrefixKept(w.graph, ImportFile(w, path, script, now, Some(k)).world.graph,
      ParsePath(path).value, ValidateScript(script).value, w.nextId, now, j)
  {
    var c, turns := ParsePath(path).value, ValidateScript(script).value;
    PlannedPrefixKept(w.graph, c, turns, w.nextId, now, k, j);
  }

  /** What survives once the catalog, the root pair and j turn pairs have run. */
  ghost predicate PrefixKept(g: Graph, g': Graph, c: Coords, turns: seq<TurnRecord>, job: Id, now: int, j: nat)
    requires j <= |turns|
  {
    var root := job + 1;
    && g'.catalog == UpsertedCatalog(g.catalog, c)
    && RootNode(root, now) in g'.chains.turns
    && (PersonaOf(c), root) in g'.chains.roots
    && ChainNodes(turns, root, root + 1, now, j) <= g'.chains.turns
    && ChainEdges(root, root + 1, j) <= g'.chains.childOf
  }

  lemma {:induction false} PlannedPrefixKept(g: Graph, c: Coords, turns: seq<TurnRecord>, job: Id, now: int, k: nat, j: nat)
    requires 9 + 2 * j <= k <= 9 + 2 * |turns|
    ensures PrefixKept(g, Run(g, Plan(c, turns, job, now)[..k]), c, turns, job, now, j)
  {
    var plan := Plan(c, turns, job, now);
    var p := 9 + 2 * j;
    var head, tail := plan[..p], plan[p..k];
    var g1 := Run(g, head);
    assert PrefixKept(g, g1, c, turns, job, now, j) by {
      PrefixEffect(g, c, turns, job, now, j);
    }
    assert Run(g, plan[..k]) == Run(g1, tail) by {
      assert plan[..k] == head + tail;
      RunAppend(g, head, tail);
    }
    assert forall i :: 0 <= i < |tail| ==> !tail[i].WritesCatalog() by {
      forall i | 0 <= i < |tail| ensures !tail[i].WritesCatalog() {
        assert tail[i] == plan[p + i];
      }
    }
    RunChainsOnly(g1, tail);
    LaterWritesKeepPrefix(g, g1, Run(g1, tail), c, turns, job, now, j);
  }

  /** Chain writes after the prefix keep what the prefix wrote. */
  lemma LaterWritesKeepPrefix(g: Graph, g1: Graph, g2: Graph, c: Coords, turns: seq<TurnRecord>, job: Id, now: int, j: nat)
    requires j <= |turns|
    requires PrefixKept(g, g1, c, turns, job, now, j)
    requires Grows(g1, g2) && g2.catalog == g1.catalog
    ensures PrefixKept(g, g2, c, turns, job, now, j)
  {
  }

  /** Imports keep the catalog keyed, whatever the store refuses; with
      OneNodePerCoordinate this leaves one node per coordinate. */
  lemma {:induction false} ImportKeepsKeyed(w: World, path: seq<string>, script: seq<Record>, now: int, rejectAt: Option<nat>)
    requires Keyed(w.graph.catalog)
    ensures Keyed(ImportFile(w, path, script, now, rejectAt).world.graph.catalog)
  {
    if Importable(path, script) {
      var c, turns := ParsePath(path).value, ValidateScript(script).value;
      var plan := Plan(c, turns, w.nextId, now);
      ParsedAreCanonical(path);
      PlanKeyed(c, turns, w.nextId, now);
      RunKeepsKeyed(w.graph, plan);
      if rejectAt.Some? && rejectAt.value < |plan| {
        var k := rejectAt.value;
        assert forall i :: 0 <= i < |plan[..k]| ==> KeyedStmt(plan[..k][i]) by {
          forall i | 0 <= i < |plan[..k]| ensures KeyedStmt(plan[..k][i]) {
            assert plan[..k][i] == plan[i];
          }
        }
        RunKeepsKeyed(w.graph, plan[..k]);
      }
    }
  }

  // ---------------------------------------------------------------------------
  // A worked import

  /** Importing Therapy/Module01/Day01/CoachAlex01.json with a system turn and a
      user turn into an empty store: job id 0, root 1, turns 2 and 3, and exactly
      the catalog nodes, the root with its ROOTS edge, and the chain
      root <- system <- user. */
  lemma {:induction false} WorkedImport(now: int) returns (o: Outcome)
    ensures o == ImportFile(World(EmptyGraph, 0), ["Therapy", "Module01", "Day01", "CoachAlex01.json"],
      [map[RoleKey := Str("system"), TextKey := Str("Welcome")], map[RoleKey := Str("user"), TextKey := Str("Hi")]],
      now, None)
    ensures o.jobId == Success(0) && o.world.nextId == 4
    ensures o.world.graph == WorkedGraph(now)
  {
    var path := ["Therapy", "Module01", "Day01", "CoachAlex01.json"];
    var script := [map[RoleKey := Str("system"), TextKey := Str("Welcome")], map[RoleKey := Str("user"), TextKey := Str("Hi")]];
    ScenarioPath();
    WorkedScript();
    ImportEffect(World(EmptyGraph, 0), path, script, now);
    WorkedPlan(now);
    o := ImportFile(World(EmptyGraph, 0), path, script, now, None);
  }

  /** The worked import's two records validate to a system turn and a user turn. */
  lemma WorkedScript()
    ensures ValidateScript([map[RoleKey := Str("system"), TextKey := Str("Welcome")],
                            map[RoleKey := Str("user"), TextKey := Str("Hi")]])
      == Success([TurnRecord("system", "Welcome"), TurnRecord("user", "Hi")])
  {
    var turns := [TurnRecord("system", "Welcome"), TurnRecord("user", "Hi")];
    var records := seq(|turns|, i requires 0 <= i < |turns| => ToRecord(turns[i]));
    ScriptRoundTrip(turns);
    assert records == [ToRecord(turns[0]), ToRecord(turns[1])];
  }

  /** The store the worked import leaves, written out node by node. */
  function WorkedGraph(now: int): Graph {
    Graph(
      Catalog(map["Therapy" := 0], {ModuleNode(1, 1)}, {DayNode(1, 1)}, {PersonaNode("CoachAlex01", 1)},
        {("Therapy", ModuleNode(1, 1))}, {(ModuleNode(1, 1), DayNode(1, 1))},
        {(DayNode(1, 1), PersonaNode("CoachAlex01", 1))}),
      Chains({Turn(1, RootRole, None, None, None, now),
              Turn(2, "system", Some("Welcome"), Some(true), Some(1), now),
              Turn(3, "user", Some("Hi"), Some(true), Some(2), now)},
             {(PersonaNode("CoachAlex01", 1), 1)},
             {(2, 1), (3, 2)}))
  }

  lemma {:induction false} WorkedPlan(now: int)
    ensures PlannedGraph(EmptyGraph, Coords("Therapy", 0, 1, 1, "CoachAlex01", 1),
      [TurnRecord("system", "Welcome"), TurnRecord("user", "Hi")], 0, now) == WorkedGraph(now)
  {
    var c := Coords("Therapy", 0, 1, 1, "CoachAlex01", 1);
    var turns := [TurnRecord("system", "Welcome"), TurnRecord("user", "Hi")];
    assert ChainNodes(turns, 1, 2, now, 2) ==
      {Turn(2, "system", Some("Welcome"), Some(true), Some(1), now), Turn(3, "user", Some("Hi"), Some(true), Some(2), now)} by {
      assert ChainNodes(turns, 1, 2, now, 1) == {ChainNode(turns, 1, 2, now, 0)};
    }
    assert ChainEdges(1, 2, 2) == {(2, 1), (3, 2)} by {
      assert ChainEdges(1, 2, 1) == {(2, 1)};
    }
    WorkedCatalog();
  }

  lemma WorkedCatalog()
    ensures UpsertedCatalog(EmptyGraph.catalog, Coords("Therapy", 0, 1, 1, "CoachAlex01", 1)) == WorkedGraph(0).catalog
  {
    var u := UpsertedCatalog(EmptyGraph.catalog, Coords("Therapy", 0, 1, 1, "CoachAlex01", 1));
    assert (set m | m in u.modules && m.id == 1) == {ModuleNode(1, 1)};
    assert u.hasModule == {("Therapy", ModuleNode(1, 1))};
    assert u.hasDay == {(ModuleNode(1, 1), DayNode(1, 1))};
  }
}

=== FILE: script.dfy ===
/** The turn-record validator. A script is the already-decoded JSON array of turn
    records; each record is a JSON object, i.e. a map from key to value. A record is
    well shaped when `role` and `text` are strings and `seq`, if present, is an
    optional integer; other keys are ignored. One bad record rejects the whole script. */
module Script {
  import opened Wrappers
  import Digits

  /** A decoded JSON value, as far as the validator distinguishes it.
      `Compound` stands for arrays and objects, whose content is never read. */
  datatype Value = Null | Bool(b: bool) | Int(i: int) | Str(s: string) | Compound

  type Record = map<string, Value>

  /** What the importer keeps of a validated record. */
  datatype TurnRecord = TurnRecord(role: string, text: string)

  const RoleKey: string := "role"
  const TextKey: string := "text"
  const SeqKey: string := "seq"

  /** The whitespace stripped around an integer string: space, tab, line feed,
      vertical tab, form feed and carriage return. */
  predicate IsSpace(c: char) {
    c == ' ' || '\t' <= c <= '\r'
  }

  /** s without its leading whitespace. */
  function TrimStart(s: string): (t: string)
    ensures |t| <= |s|
    ensures |t| > 0 ==> !IsSpace(t[0])
  {
    if |s| > 0 && IsSpace(s[0]) then TrimStart(s[1..]) else s
  }

  /** s without its trailing whitespace. */
  function TrimEnd(s: string): (t: string)
    ensures |t| <= |s|
    ensures |t| > 0 ==> !IsSpace(t[|t| - 1])
  {
    if |s| > 0 && IsSpace(s[|s| - 1]) then TrimEnd(s[..|s| - 1]) else s
  }

  /** Trimming the front leaves a suffix of the string. */
  lemma {:induction false} TrimStartSuffix(s: string)
    ensures TrimStart(s) == s[|s| - |TrimStart(s)|..]
    decreases |s|
  {
    if |s| > 0 && IsSpace(s[0]) {
      TrimStartSuffix(s[1..]);
      assert s[1..][|s| - 1 - |TrimStart(s)|..] == s[|s| - |TrimStart(s)|..];
    }
  }

  /** Trimming the back leaves a prefix of the string. */
  lemma {:induction false} TrimEndPrefix(s: string)
    ensures TrimEnd(s) == s[..|TrimEnd(s)|]
    decreases |s|
  {
    if |s| > 0 && IsSpace(s[|s| - 1]) {
      TrimEndPrefix(s[..|s| - 1]);
    }
  }

  /** Only whitespace is trimmed from the front. */
  lemma {:induction false} TrimStartDropsSpaces(s: string, i: nat)
    requires i < |s| - |TrimStart(s)|
    ensures IsSpace(s[i])
    decreases |s|
  {
    if i > 0 {
      assert s[1..][i - 1] == s[i];
      TrimStartDropsSpaces(s[1..], i - 1);
    }
  }

  /** Only whitespace is trimmed from the back. */
  lemma {:induction false} TrimEndDropsSpaces(s: string, i: nat)
    requires |TrimEnd(s)| <= i < |s|
    ensures IsSpace(s[i])
    decreases |s|
  {
    if i < |s| - 1 {
      assert s[..|s| - 1][i] == s[i];
      TrimEndDropsSpaces(s[..|s| - 1], i);
    }
  }

  /** Digits in groups joined by single underscores: `10` and `1_000`, but not
      `_1`, `1_` or `1__0`. */
  predicate DigitGroups(s: string) {
    && |s| > 0 && Digits.IsDigit(s[0]) && Digits.IsDigit(s[|s| - 1])
    && (forall i :: 0 <= i < |s| ==> Digits.IsDigit(s[i]) || s[i] == '_')
    && (forall i :: 0 <= i < |s| - 1 ==> !Doubled(s, i))
  }

  /** Two underscores in a row at position i. */
  predicate Doubled(s: string, i: nat)
    requires i + 1 < |s|
  {
    s[i] == '_' && s[i + 1] == '_'
  }

  /** The longest integer string, once trimmed, the validator reads; a longer one
      is refused outright, as Python's limit on integer string conversion does. */
  const MaxIntLength: nat := Digits.MaxIntDigits

  /** An integer string the optional-integer field accepts in place of a number,
      read the way `int()` reads a string: surrounding whitespace, an optional
      sign, then ASCII digits in underscore-joined groups, at most MaxIntLength
      characters once trimmed. */
  predicate IsIntLiteral(s: string) {
    var t := TrimEnd(TrimStart(s));
    var body := if |t| > 0 && (t[0] == '+' || t[0] == '-') then t[1..] else t;
    |t| <= MaxIntLength && DigitGroups(body)
  }

  /** The legacy `seq` field is an optional integer: null, a number (booleans count
      as numbers), or a string that reads as an integer. */
  predicate SeqAcceptable(v: Value) {
    v.Null? || v.Int? || v.Bool? || (v.Str? && IsIntLiteral(v.s))
  }

  predicate HasString(r: Record, key: string) {
    key in r && r[key].Str?
  }

  /** The record schema: required string `role` and `text`, optional integer `seq`,
      anything else ignored. */
  predicate WellShaped(r: Record) {
    && HasString(r, RoleKey)
    && HasString(r, TextKey)
    && (SeqKey in r ==> SeqAcceptable(r[SeqKey]))
  }

  function ToTurn(r: Record): (t: TurnRecord)
    requires WellShaped(r)
    ensures r[RoleKey] == Str(t.role) && r[TextKey] == Str(t.text)
  {
    TurnRecord(r[RoleKey].s, r[TextKey].s)
  }

  /** Validates every record of the script, in order. On failure the error is the
      index of the first record that breaks the schema. */
  function ValidateScript(items: seq<Record>): (r: Result<seq<TurnRecord>, nat>)
    ensures r.Success? <==> forall i :: 0 <= i < |items| ==> WellShaped(items[i])
    ensures r.Success? ==> |r.value| == |items|
    ensures r.Success? ==> forall i :: 0 <= i < |items| ==>
      items[i][RoleKey] == Str(r.value[i].role) && items[i][TextKey] == Str(r.value[i].text)
    ensures r.Failure? ==> r.error < |items| && !WellShaped(items[r.error])
    ensures r.Failure? ==> forall j :: 0 <= j < r.error ==> WellShaped(items[j])
  {
    if |items| == 0 then Success([])
    else if !WellShaped(items[0]) then Failure(0)
    else
      match ValidateScript(items[1..])
      case Failure(i) => Failure(i + 1)
      case Success(turns) => Success([ToTurn(items[0])] + turns)
  }

  // ---------------------------------------------------------------------------
  // Properties

  /** Keys outside the schema never change the verdict or the turn read. */
  lemma ExtraKeysIgnored(r: Record, key: string, v: Value)
    requires key != RoleKey && key != TextKey && key != SeqKey
    ensures WellShaped(r[key := v]) <==> WellShaped(r)
    ensures WellShaped(r) ==> ToTurn(r[key := v]) == ToTurn(r)
  {
  }

  /** An accepted `seq` value is ignored: the record validates and reads exactly as
      it would without the field. */
  lemma AcceptedSeqIgnored(r: Record, v: Value)
    requires SeqAcceptable(v)
    ensures WellShaped(r[SeqKey := v]) <==> WellShaped(r - {SeqKey})
    ensures WellShaped(r - {SeqKey}) ==> ToTurn(r[SeqKey := v]) == ToTurn(r - {SeqKey})
  {
  }

  /** A `seq` of the wrong kind rejects the record even when role and text are fine. */
  lemma MalformedSeqRejected(r: Record, v: Value)
    requires !SeqAcceptable(v)
    ensures !WellShaped(r[SeqKey := v])
  {
  }

  /** All or nothing: one bad record anywhere fails the whole script, and the
      failure names the first bad record at or before it. */
  lemma {:induction false} OneBadRecordRejectsScript(items: seq<Record>, k: nat)
    requires k < |items| && !WellShaped(items[k])
    ensures ValidateScript(items).Failure?
    ensures ValidateScript(items).error <= k
  {
    if k > 0 && WellShaped(items[0]) {
      OneBadRecordRejectsScript(items[1..], k - 1);
    }
  }

  /** Validation reads the script record by record: the verdict on a concatenation
      is the first failure, with its index shifted past the records before it. */
  lemma {:induction false} ValidateAppend(a: seq<Record>, b: seq<Record>)
    ensures ValidateScript(a + b) ==
      match ValidateScript(a)
      case Failure(i) => Failure(i)
      case Success(ta) =>
        match ValidateScript(b)
        case Failure(j) => Failure(|a| + j)
        case Success(tb) => Success(ta + tb)
  {
    if |a| == 0 {
      assert a + b == b;
      if ValidateScript(b).Success? {
        assert [] + ValidateScript(b).value == ValidateScript(b).value;
      }
    } else {
      assert (a + b)[0] == a[0];
      assert (a + b)[1..] == a[1..] + b;
      ValidateAppend(a[1..], b);
      if WellShaped(a[0]) && ValidateScript(a[1..]).Success? && ValidateScript(b).Success? {
        var h, ta, tb := [ToTurn(a[0])], ValidateScript(a[1..]).value, ValidateScript(b).value;
        assert h + (ta + tb) == (h + ta) + tb;
      }
    }
  }

  /** A record missing `text` fails the script, whatever the other records hold. */
  lemma MissingTextRejected(items: seq<Record>, k: nat)
    requires k < |items| && TextKey !in items[k]
    ensures ValidateScript(items).Failure?
  {
    OneBadRecordRejectsScript(items, k);
  }

  /** The importer test's three-turn script, system then user then assistant,
      with role and text only, validates to its three turns in order. */
  lemma ScenarioScript()
    ensures ValidateScript([map[RoleKey := Str("system"), TextKey := Str("this is the system prompt")],
                            map[RoleKey := Str("user"), TextKey := Str("this is the user reply")],
                            map[RoleKey := Str("assistant"), TextKey := Str("this is the assistant response")]])
      == Success([TurnRecord("system", "this is the system prompt"),
                  TurnRecord("user", "this is the user reply"),
                  TurnRecord("assistant", "this is the assistant response")])
  {
    var turns := [TurnRecord("system", "this is the system prompt"),
                  TurnRecord("user", "this is the user reply"),
                  TurnRecord("assistant", "this is the assistant response")];
    var records := seq(|turns|, i requires 0 <= i < |turns| => ToRecord(turns[i]));
    ScriptRoundTrip(turns);
    assert records[0] == ToRecord(turns[0]) && records[1] == ToRecord(turns[1]) && records[2] == ToRecord(turns[2]);
    assert records == [ToRecord(turns[0]), ToRecord(turns[1]), ToRecord(turns[2])];
  }

  // ---------------------------------------------------------------------------
  // Integer strings accepted for `seq`

  /** Leading whitespace is dropped up to the first non-space character. */
  lemma {:induction false} TrimStartSpaces(lead: string, x: string)
    requires forall i :: 0 <= i < |lead| ==> IsSpace(lead[i])
    requires |x| > 0 && !IsSpace(x[0])
    ensures TrimStart(lead + x) == x
    decreases |lead|
  {
    if |lead| == 0 {
      assert lead + x == x;
    } else {
      assert (lead + x)[0] == lead[0];
      assert (lead + x)[1..] == lead[1..] + x;
      TrimStartSpaces(lead[1..], x);
    }
  }

  /** Trailing whitespace is dropped back to the last non-space character. */
  lemma {:induction false} TrimEndSpaces(x: string, trail: string)
    requires forall i :: 0 <= i < |trail| ==> IsSpace(trail[i])
    requires |x| > 0 && !IsSpace(x[|x| - 1])
    ensures TrimEnd(x + trail) == x
    decreases |trail|
  {
    if |trail| == 0 {
      assert x + trail == x;
    } else {
      var shorter := trail[..|trail| - 1];
      assert (x + trail)[|x + trail| - 1] == trail[|trail| - 1];
      assert (x + trail)[..|x + trail| - 1] == x + shorter;
      TrimEndSpaces(x, shorter);
    }
  }

  /** Whitespace around a core that starts and ends with a non-space is stripped. */
  lemma TrimAround(lead: string, core: string, trail: string)
    requires forall i :: 0 <= i < |lead| ==> IsSpace(lead[i])
    requires forall i :: 0 <= i < |trail| ==> IsSpace(trail[i])
    requires |core| > 0 && !IsSpace(core[0]) && !IsSpace(core[|core| - 1])
    ensures TrimEnd(TrimStart(lead + core + trail)) == core
  {
    assert lead + core + trail == lead + (core + trail);
    assert (core + trail)[0] == core[0];
    TrimStartSpaces(lead, core + trail);
    TrimEndSpaces(core, trail);
  }

  /** Every decimal spelling within the length limit, with or without a sign and
      with any whitespace around it, is an accepted `seq` string. */
  lemma PaddedDecimalAccepted(lead: string, sign: string, n: nat, trail: string)
    requires forall i :: 0 <= i < |lead| ==> IsSpace(lead[i])
    requires forall i :: 0 <= i < |trail| ==> IsSpace(trail[i])
    requires sign == "" || sign == "+" || sign == "-"
    requires |sign| + |Digits.NatToDecimal(n)| <= MaxIntLength
    ensures IsIntLiteral(lead + sign + Digits.NatToDecimal(n) + trail)
  {
    var ds := Digits.NatToDecimal(n);
    CoreTrims(lead, sign, ds, trail);
    assert DigitGroups(ds);
    LiteralOfCore(lead + sign + ds + trail, sign, ds);
  }

  /** A decimal spelling longer than the limit is refused however it is padded:
      `1` followed by 4300 zeros is not a `seq` string. */
  lemma OverlongDecimalRefused(lead: string, sign: string, n: nat, trail: string)
    requires forall i :: 0 <= i < |lead| ==> IsSpace(lead[i])
    requires forall i :: 0 <= i < |trail| ==> IsSpace(trail[i])
    requires sign == "" || sign == "+" || sign == "-"
    requires |sign| + |Digits.NatToDecimal(n)| > MaxIntLength
    ensures !IsIntLiteral(lead + sign + Digits.NatToDecimal(n) + trail)
  {
    CoreTrims(lead, sign, Digits.NatToDecimal(n), trail);
  }

  /** A sign and a digit string, padded with whitespace, trim back to themselves. */
  lemma CoreTrims(lead: string, sign: string, ds: string, trail: string)
    requires forall i :: 0 <= i < |lead| ==> IsSpace(lead[i])
    requires forall i :: 0 <= i < |trail| ==> IsSpace(trail[i])
    requires sign == "" || sign == "+" || sign == "-"
    requires |ds| > 0 && Digits.IsDigit(ds[0]) && Digits.IsDigit(ds[|ds| - 1])
    ensures TrimEnd(TrimStart(lead + sign + ds + trail)) == sign + ds
  {
    var core := sign + ds;
    assert lead + sign + ds + trail == lead + core + trail;
    assert core[|core| - 1] == ds[|ds| - 1];
    assert core[0] == if sign == "" then ds[0] else sign[0];
    TrimAround(lead, core, trail);
  }

  /** A bare decimal `seq` string is accepted exactly when the number has at most
      MaxIntLength digits. */
  lemma DecimalSeqWithinLimit(n: nat)
    ensures IsIntLiteral(Digits.NatToDecimal(n)) <==> n < Digits.Pow10(MaxIntLength)
  {
    var ds := Digits.NatToDecimal(n);
    assert "" + "" + ds + "" == ds;
    Digits.DecimalLength(n, MaxIntLength);
    if n < Digits.Pow10(MaxIntLength) {
      PaddedDecimalAccepted("", "", n, "");
    } else {
      OverlongDecimalRefused("", "", n, "");
    }
  }

  /** A string that trims to an optional sign and digit groups is an integer string. */
  lemma LiteralOfCore(s: string, sign: string, body: string)
    requires sign == "" || sign == "+" || sign == "-"
    requires TrimEnd(TrimStart(s)) == sign + body && DigitGroups(body)
    requires |sign| + |body| <= MaxIntLength
    ensures IsIntLiteral(s)
  {
    var t := sign + body;
    if sign == "" {
      assert t == body;
    } else {
      assert t[0] == sign[0] && t[1..] == body;
    }
  }

  /** A character that is neither whitespace, a sign, a digit nor an underscore
      anywhere in the string makes it no integer: `7.5` and `seven` are refused. */
  lemma StrayCharacterRejected(s: string, i: nat)
    requires i < |s|
    requires !IsSpace(s[i]) && s[i] != '+' && s[i] != '-' && !Digits.IsDigit(s[i]) && s[i] != '_'
    ensures !IsIntLiteral(s)
  {
    var u := TrimStart(s);
    var a := |s| - |u|;
    assert a <= i by {
      if i < a { TrimStartDropsSpaces(s, i); }
    }
    var t := TrimEnd(u);
    assert u[i - a] == s[i] by {
      TrimStartSuffix(s);
    }
    assert i - a < |t| by {
      if |t| <= i - a { TrimEndDropsSpaces(u, i - a); }
    }
    assert t[i - a] == s[i] by {
      TrimEndPrefix(u);
    }
    if |t| > 0 && (t[0] == '+' || t[0] == '-') {
      assert t[1..][i - a - 1] == s[i];
    }
  }

  /** Integer strings `int()` reads: padded, signed, and with an underscore
      between digits. */
  lemma IntLiteralAccepted()
    ensures IsIntLiteral(" 7") && IsIntLiteral("-7\n") && IsIntLiteral("1_0")
  {
    PaddedSevenAccepted();
    SignedSevenAccepted();
    UnderscoreAccepted();
  }

  lemma PaddedSevenAccepted()
    ensures IsIntLiteral(" 7")
  {
    CoreTrims(" ", "", "7", "");
    assert " " + "" + "7" + "" == " 7";
    assert DigitGroups("7");
    LiteralOfCore(" 7", "", "7");
  }

  lemma SignedSevenAccepted()
    ensures IsIntLiteral("-7\n")
  {
    CoreTrims("", "-", "7", "\n");
    assert "" + "-" + "7" + "\n" == "-7\n";
    assert DigitGroups("7");
    LiteralOfCore("-7\n", "-", "7");
  }

  lemma UnderscoreAccepted()
    ensures IsIntLiteral("1_0")
  {
    CoreTrims("", "", "1_0", "");
    assert "" + "" + "1_0" + "" == "1_0";
    assert !Doubled("1_0", 0) && !Doubled("1_0", 1);
    assert DigitGroups("1_0");
    LiteralOfCore("1_0", "", "1_0");
  }

  /** Near misses `int()` refuses: blank, a sign parted from its digits, a
      doubled or leading underscore, a decimal point. */
  lemma IntLiteralRefused()
    ensures !IsIntLiteral(" ") && !IsIntLiteral("+ 7")
    ensures !IsIntLiteral("1__0") && !IsIntLiteral("_1") && !IsIntLiteral("7.5")
  {
    assert !IsIntLiteral(" ") by {
      assert " "[1..] == "";
    }
    SpacedSignRefused();
    DoubledUnderscoreRefused();
    LeadingUnderscoreRefused();
    StrayCharacterRejected("7.5", 1);
  }

  lemma SpacedSignRefused()
    ensures !IsIntLiteral("+ 7")
  {
    TrimAround("", "+ 7", "");
    assert "" + "+ 7" + "" == "+ 7";
    assert "+ 7"[1..][0] == ' ';
  }

  lemma DoubledUnderscoreRefused()
    ensures !IsIntLiteral("1__0")
  {
    TrimAround("", "1__0", "");
    assert "" + "1__0" + "" == "1__0";
    assert Doubled("1__0", 1);
  }

  lemma LeadingUnderscoreRefused()
    ensures !IsIntLiteral("_1")
  {
    TrimAround("", "_1", "");
    assert "" + "_1" + "" == "_1";
  }

  // ---------------------------------------------------------------------------
  // Round trip with the exporter's records

  /** The record an exporter writes for a turn: role and text only. */
  function ToRecord(t: TurnRecord): Record {
    map[RoleKey := Str(t.role), TextKey := Str(t.text)]
  }

  /** A record with string role and text is well shaped and reads back as that turn. */
  lemma RecordRoundTrip(t: TurnRecord)
    ensures WellShaped(ToRecord(t)) && ToTurn(ToRecord(t)) == t
  {
  }

  /** Validating the exporter's records for a list of turns gives that list back. */
  lemma ScriptRoundTrip(turns: seq<TurnRecord>)
    ensures ValidateScript(seq(|turns|, i requires 0 <= i < |turns| => ToRecord(turns[i]))) == Success(turns)
  {
    var items := seq(|turns|, i requires 0 <= i < |turns| => ToRecord(turns[i]));
    forall i | 0 <= i < |items| ensures WellShaped(items[i]) {
      RecordRoundTrip(turns[i]);
    }
    var r := ValidateScript(items);
    assert r.Success? && |r.value| == |turns|;
    forall i | 0 <= i < |turns| ensures r.value[i] == turns[i] {
      assert items[i] == ToRecord(turns[i]);
    }
    assert r.value == turns;
  }
}

=== FILE: store.dfy ===
/** The graph store, abstracted. Nodes are identified by their property tuples, so
    a MERGE on a node pattern is the insertion of that tuple into a set, and a MERGE
    on an edge pattern inserts the edge for every pair of nodes the statement's
    MATCH finds. The Program node is the exception: it is merged on its name alone
    and its ordering key is then overwritten, so programs form a map. */
module Store {
  import opened Wrappers

  /** Identifiers minted by the importer for turns and jobs. */
  type Id = nat

  datatype ModuleNode = ModuleNode(id: int, seqNo: int)
  datatype DayNode = DayNode(id: int, seqNo: int)
  datatype PersonaNode = PersonaNode(id: string, seqNo: int)

  /** A Turn node. The root anchor has role "root" and no text, accepted flag or
      parent id; a script turn has all three. */
  datatype Turn = Turn(id: Id, role: string, text: Option<string>, accepted: Option<bool>, parentId: Option<Id>, ts: int)

  /** Program, Module, Day and Persona nodes with the HAS_MODULE, HAS_DAY and
      HAS_PERSONA edges. */
  datatype Catalog = Catalog(
    programs: map<string, int>,
    modules: set<ModuleNode>,
    days: set<DayNode>,
    personas: set<PersonaNode>,
    hasModule: set<(string, ModuleNode)>,
    hasDay: set<(ModuleNode, DayNode)>,
    hasPersona: set<(DayNode, PersonaNode)>)

  /** Turn nodes with the ROOTS edges (persona to root turn id) and the CHILD_OF
      edges (child turn id to parent turn id). */
  datatype Chains = Chains(turns: set<Turn>, roots: set<(PersonaNode, Id)>, childOf: set<(Id, Id)>)

  datatype Graph = Graph(catalog: Catalog, chains: Chains)

  const RootRole: string := "root"

  const EmptyGraph: Graph := Graph(Catalog(map[], {}, {}, {}, {}, {}, {}), Chains({}, {}, {}))

  /** The statements the importer runs, one per Cypher statement, with their bound parameters. */
  datatype Stmt =
    | MergeProgram(program: string, programSeq: int)
    | MergeModule(moduleId: int, moduleSeq: int)
    | MergeHasModule(fromProgram: string, moduleId: int)
    | MergeDay(dayId: int, daySeq: int)
    | MergeHasDay(day: DayNode, fromModuleId: int)
    | MergePersona(personaId: string, personaSeq: int)
    | MergeHasPersona(fromDay: DayNode, persona: PersonaNode)
    | MergeRoot(rootId: Id, ts: int)
    | MergeRoots(persona: PersonaNode, rootId: Id)
    | MergeTurn(turnId: Id, role: string, text: string, parent: Id, ts: int)
    | MergeChildOf(parent: Id, child: Id)
  {
    predicate WritesCatalog() {
      MergeProgram? || MergeModule? || MergeHasModule? || MergeDay? || MergeHasDay? || MergePersona? || MergeHasPersona?
    }
  }

  predicate HasTurn(ch: Chains, id: Id) {
    exists t :: t in ch.turns && t.id == id
  }

  predicate HasRoot(ch: Chains, id: Id) {
    exists t :: t in ch.turns && t.id == id && t.role == RootRole
  }

  function ModulesWithId(cat: Catalog, id: int): (ms: set<ModuleNode>)
    ensures forall m :: m in ms <==> m in cat.modules && m.id == id
  {
    set m | m in cat.modules && m.id == id
  }

  /** Append-only growth: every node and edge survives (a Program may only have its
      ordering key set again), and turn nodes are never changed. */
  predicate Grows(g: Graph, r: Graph) {
    && g.catalog.programs.Keys <= r.catalog.programs.Keys
    && g.catalog.modules <= r.catalog.modules
    && g.catalog.days <= r.catalog.days
    && g.catalog.personas <= r.catalog.personas
    && g.catalog.hasModule <= r.catalog.hasModule
    && g.catalog.hasDay <= r.catalog.hasDay
    && g.catalog.hasPersona <= r.catalog.hasPersona
    && g.chains.turns <= r.chains.turns
    && g.chains.roots <= r.chains.roots
    && g.chains.childOf <= r.chains.childOf
  }

  function ApplyCatalog(cat: Catalog, s: Stmt): (r: Catalog)
    requires s.WritesCatalog()
  {
    match s
    case MergeProgram(name, key) => cat.(programs := cat.programs[name := key])
    case MergeModule(id, key) => cat.(modules := cat.modules + {ModuleNode(id, key)})
    case MergeHasModule(name, id) =>
      if name in cat.programs
      then cat.(hasModule := cat.hasModule + set m | m in ModulesWithId(cat, id) :: (name, m))
      else cat
    case MergeDay(id, key) => cat.(days := cat.days + {DayNode(id, key)})
    case MergeHasDay(day, id) =>
      if day in cat.days
      then cat.(hasDay := cat.hasDay + set m | m in ModulesWithId(cat, id) :: (m, day))
      else cat
    case MergePersona(id, key) => cat.(personas := cat.personas + {PersonaNode(id, key)})
    case MergeHasPersona(day, persona) =>
      if day in cat.days && persona in cat.personas
      then cat.(hasPersona := cat.hasPersona + {(day, persona)})
      else cat
  }

  function ApplyChains(ch: Chains, personas: set<PersonaNode>, s: Stmt): (r: Chains)
    requires !s.WritesCatalog()
  {
    match s
    case MergeRoot(id, ts) => ch.(turns := ch.turns + {Turn(id, RootRole, None, None, None, ts)})
    case MergeRoots(persona, id) =>
      if persona in personas && HasRoot(ch, id)
      then ch.(roots := ch.roots + {(persona, id)})
      else ch
    case MergeTurn(id, role, text, parent, ts) =>
      ch.(turns := ch.turns + {Turn(id, role, Some(text), Some(true), Some(parent), ts)})
    case MergeChildOf(parent, child) =>
      if HasTurn(ch, parent) && HasTurn(ch, child)
      then ch.(childOf := ch.childOf + {(child, parent)})
      else ch
  }

  /** Runs one statement against the store. Catalog statements touch only the
      catalog, turn statements only the chains, and nothing is ever removed. */
  function Apply(g: Graph, s: Stmt): (r: Graph)
    ensures Grows(g, r)
    ensures s.WritesCatalog() ==> r.chains == g.chains
    ensures !s.WritesCatalog() ==> r.catalog == g.catalog
  {
    if s.WritesCatalog() then g.(catalog := ApplyCatalog(g.catalog, s))
    else g.(chains := ApplyChains(g.chains, g.catalog.personas, s))
  }

  /** MERGE is idempotent: running the same statement, with the same clock value
      for the root and turn MERGEs, a second time changes nothing. */
  lemma MergeIdempotent(g: Graph, s: Stmt)
    ensures Apply(Apply(g, s), s) == Apply(g, s)
  {
    var r := Apply(g, s);
    match s {
      case MergeHasModule(name, id) =>
        assert ModulesWithId(r.catalog, id) == ModulesWithId(g.catalog, id);
      case MergeHasDay(day, id) =>
        assert ModulesWithId(r.catalog, id) == ModulesWithId(g.catalog, id);
      case MergeRoots(persona, id) =>
        assert HasRoot(r.chains, id) <==> HasRoot(g.chains, id);
      case MergeChildOf(parent, child) =>
        assert HasTurn(r.chains, parent) <==> HasTurn(g.chains, parent);
      case _ =>
    }
  }

  /** The root and turn MERGEs carry the store clock in their pattern, so running
      one again under a later clock value does not find the first node: a second
      Turn node with the same id is stored next to it. */
  lemma ClockedMergeAddsNode(g: Graph, s: Stmt, later: int)
    requires s.MergeRoot? || s.MergeTurn?
    requires later != s.ts
    ensures var r := Apply(Apply(g, s), s.(ts := later));
      && (s.MergeRoot? ==>
            && Turn(s.rootId, RootRole, None, None, None, s.ts) in r.chains.turns
            && Turn(s.rootId, RootRole, None, None, None, later) in r.chains.turns)
      && (s.MergeTurn? ==>
            && Turn(s.turnId, s.role, Some(s.text), Some(true), Some(s.parent), s.ts) in r.chains.turns
            && Turn(s.turnId, s.role, Some(s.text), Some(true), Some(s.parent), later) in r.chains.turns)
  {
  }

  /** After a node MERGE the node with exactly the merged properties exists; the
      Program node carries the key just SET. */
  lemma MergeCreatesNode(g: Graph, s: Stmt)
    ensures var r := Apply(g, s);
      && (s.MergeProgram? ==> s.program in r.catalog.programs && r.catalog.programs[s.program] == s.programSeq)
      && (s.MergeModule? ==> ModuleNode(s.moduleId, s.moduleSeq) in r.catalog.modules)
      && (s.MergeDay? ==> DayNode(s.dayId, s.daySeq) in r.catalog.days)
      && (s.MergePersona? ==> PersonaNode(s.personaId, s.personaSeq) in r.catalog.personas)
      && (s.MergeRoot? ==> Turn(s.rootId, RootRole, None, None, None, s.ts) in r.chains.turns)
      && (s.MergeTurn? ==> Turn(s.turnId, s.role, Some(s.text), Some(true), Some(s.parent), s.ts) in r.chains.turns)
  {
  }

  /** An edge MERGE draws its edge exactly between the nodes its MATCH finds, and
      draws no other edge: HAS_MODULE to every Module node with the id, HAS_DAY
      from every such Module node to the stored Day node, the others between their
      two stored endpoints. */
  lemma MergeEdgeWhenMatched(g: Graph, s: Stmt)
    ensures var r := Apply(g, s);
      s.MergeHasModule? ==> forall p, m :: (p, m) in r.catalog.hasModule <==>
        (p, m) in g.catalog.hasModule ||
        (p == s.fromProgram && s.fromProgram in g.catalog.programs && m in g.catalog.modules && m.id == s.moduleId)
    ensures var r := Apply(g, s);
      s.MergeHasDay? ==> forall m, d :: (m, d) in r.catalog.hasDay <==>
        (m, d) in g.catalog.hasDay ||
        (d == s.day && s.day in g.catalog.days && m in g.catalog.modules && m.id == s.fromModuleId)
    ensures var r := Apply(g, s);
      s.MergeHasPersona? ==> forall d, p :: (d, p) in r.catalog.hasPersona <==>
        (d, p) in g.catalog.hasPersona ||
        (d == s.fromDay && p == s.persona && s.fromDay in g.catalog.days && s.persona in g.catalog.personas)
    ensures var r := Apply(g, s);
      s.MergeRoots? ==> forall p, t :: (p, t) in r.chains.roots <==>
        (p, t) in g.chains.roots ||
        (p == s.persona && t == s.rootId && s.persona in g.catalog.personas && HasRoot(g.chains, s.rootId))
    ensures var r := Apply(g, s);
      s.MergeChildOf? ==> forall c, p :: (c, p) in r.chains.childOf <==>
        (c, p) in g.chains.childOf ||
        (c == s.child && p == s.parent && HasTurn(g.chains, s.parent) && HasTurn(g.chains, s.child))
  {
  }

  /** Runs statements one after the other, each as its own write. */
  function Run(g: Graph, ss: seq<Stmt>): (r: Graph)
    ensures Grows(g, r)
    decreases |ss|
  {
    if |ss| == 0 then g else Run(Apply(g, ss[0]), ss[1..])
  }

  /** Catalog statements alone leave the chains as they are. */
  lemma {:induction false} RunCatalogOnly(g: Graph, ss: seq<Stmt>)
    requires forall i :: 0 <= i < |ss| ==> ss[i].WritesCatalog()
    ensures Run(g, ss).chains == g.chains
    decreases |ss|
  {
    if |ss| > 0 {
      assert forall i :: 0 <= i < |ss[1..]| ==> ss[1..][i].WritesCatalog() by {
        forall i | 0 <= i < |ss[1..]| ensures ss[1..][i].WritesCatalog() {
          assert ss[1..][i] == ss[i + 1];
        }
      }
      RunCatalogOnly(Apply(g, ss[0]), ss[1..]);
    }
  }

  /** Turn statements alone leave the catalog as it is. */
  lemma {:induction false} RunChainsOnly(g: Graph, ss: seq<Stmt>)
    requires forall i :: 0 <= i < |ss| ==> !ss[i].WritesCatalog()
    ensures Run(g, ss).catalog == g.catalog
    decreases |ss|
  {
    if |ss| > 0 {
      assert forall i :: 0 <= i < |ss[1..]| ==> !ss[1..][i].WritesCatalog() by {
        forall i | 0 <= i < |ss[1..]| ensures !ss[1..][i].WritesCatalog() {
          assert ss[1..][i] == ss[i + 1];
        }
      }
      RunChainsOnly(Apply(g, ss[0]), ss[1..]);
    }
  }

  /** Running a concatenation is running its halves in turn; in particular a prefix
      of a statement sequence is a state the store passes through. */
  lemma {:induction false} RunAppend(g: Graph, a: seq<Stmt>, b: seq<Stmt>)
    ensures Run(g, a + b) == Run(Run(g, a), b)
    decreases |a|
  {
    if |a| == 0 {
      assert a + b == b;
    } else {
      assert (a + b)[0] == a[0];
      assert (a + b)[1..] == a[1..] + b;
      RunAppend(Apply(g, a[0]), a[1..], b);
    }
  }

  /** Running one statement is applying it. */
  lemma RunOne(g: Graph, s: Stmt)
    ensures Run(g, [s]) == Apply(g, s)
  {
  }

  /** Running two statements is applying them in order. */
  lemma RunTwo(g: Graph, s1: Stmt, s2: Stmt)
    ensures Run(g, [s1, s2]) == Apply(Apply(g, s1), s2)
  {
    assert [s1, s2][1..] == [s2];
    RunOne(Apply(g, s1), s2);
  }

  /** Every turn id the store mentions is below n. */
  predicate IdsBelow(g: Graph, n: Id) {
    && (forall t :: t in g.chains.turns ==> t.id < n)
    && (forall e :: e in g.chains.roots ==> e.1 < n)
    && (forall e :: e in g.chains.childOf ==> e.0 < n && e.1 < n)
  }

  /** A statement creates no turn with an id at or above n. */
  predicate CreatesBelow(s: Stmt, n: Id) {
    && (s.MergeRoot? ==> s.rootId < n)
    && (s.MergeTurn? ==> s.turnId < n)
  }

  /** Edges are only drawn between turns that exist, so a store whose turn ids
      are below n keeps them below n under statements that create below n. */
  lemma {:induction false} RunKeepsIdsBelow(g: Graph, ss: seq<Stmt>, n: Id)
    requires IdsBelow(g, n)
    requires forall i :: 0 <= i < |ss| ==> CreatesBelow(ss[i], n)
    ensures IdsBelow(Run(g, ss), n)
    decreases |ss|
  {
    if |ss| > 0 {
      var g1 := Apply(g, ss[0]);
      assert IdsBelow(g1, n);
      RunKeepsIdsBelow(g1, ss[1..], n);
    }
  }
}

=== FILE: wrappers.dfy ===
/** An optional value and a success-or-error result, the error path of every
    operation of the model. */
module Wrappers {

  datatype Option<+T> = None | Some(value: T)

  datatype Result<+R, +E> = Success(value: R) | Failure(error: E)

}
